=== FILE: README.md ===
# Lisaa front end in Dafny

A model of the front end of Lisaa (repository Eptx), a small imperative language
written in Rust:
the hand-written scanner (`src/scanner.rs`), the recursive-descent parser
(`src/parser.rs`) and the statement tree they build (`src/statement.rs`),
with proofs of what each of them guarantees.

- **Scanner.** `Scanner.ScanToken` is one call of `scan_token`: it reads one lexical
  unit at a cursor and returns the token, the new cursor and the new line
  counter, the scanner's error string, or a panic. `Scanner.Scan` is the
  `tokens` loop. It drops IGNORE tokens and stops at the first error. The
  source builds an EOF token after the loop and discards it, so the list never
  ends with EOF.
- **Parser.** Every grammar rule is a pure function of the token list and a
  cursor. It returns `Ok(value, pos)`, `Err(message, pos)` (the cursor is kept
  because `program` tags each error with the token before it) or `Panic`.
  `Panic` covers every place where the Rust code indexes past the end of the
  token list (`peek` at the end, `previous` on an empty list), and the
  `unwrap` of the number conversion in `literal` (src/parser.rs:298), taken
  when a NUMBER lexeme is not a numeral. The four binary
  levels (`equality`, `comparison`, `addition`, `multiplication`) share one
  code shape, so they are one function `Parser.BinaryLevel` with a level
  parameter.
- **AST.** `Statements` holds `Statement`, `Assignment`, `Declaration`,
  `IfStatement` and `FunctionDecl`. `Expressions` holds `Expr` and
  `LiteralExpr`. `Tokens` holds `Token` and `TokenType`. The last two are
  rebuilt from how the parser and scanner use them, because `expression.rs`
  and `token.rs` are not part of this model.

Behaviour modelled as written:

- A string token's lexeme is the text between the quotes minus its last
  character: `"abc"` gives `ab`. The empty string `""` makes the slice panic.
- Identifier and keyword tokens carry an empty lexeme. So every parsed
  identifier, and every function name, is the empty string.
- `func_args` checks for a comma but never consumes it. Only `( name )` is
  accepted, and a second parameter fails with "Expected identifier".
- `program` tests the error cap after recording the error, so it returns up to
  six errors.
- "Expected closing brace at the end of scope" is never produced. The `peek`
  that guards the scope loop panics at the end of the list before the
  end-of-list test can run.
- A function body is parsed by `scope`, which dispatches only on `{` or to
  `declaration`. So a braced block, or an assignment or expression statement
  with its `;`, is accepted as a body; `break` and `if` bodies fail with "Cant
  parse literal".

Modules: `Wrappers` (Option), `Tokens`, `Numerals` (digit runs, numeral
values, decimal rendering), `Scanner`, `Expressions`, `Statements`, `Parser`,
and the lemma modules `ScannerProperties` and `ParserProperties`.

## Model

| member | source | states |
|---|---|---|
| Numerals.DigitPrefix | src/scanner.rs:143-145 | the longest run of digits at the front of a string: all digits, and followed by a non-digit or the end |
| Numerals.NumeralValue | src/parser.rs:297-299 | a NUMBER lexeme has a value exactly when it is a numeral; a numeral without a fraction denotes its digit value |
| Numerals.NatToString | src/scanner.rs:44 | the line number in an error message is a non-empty digit string with no leading zero unless it is 0 |
| Numerals.NatToStringRoundTrip | src/scanner.rs:44 | reading back the rendered line number gives the number |
| Numerals.NatToStringIsNumeral | src/scanner.rs:44 | a rendered number is a numeral whose value is that number |
| Scanner.Peek | src/scanner.rs:167-173 | the character at the cursor, and NUL exactly past the end |
| Scanner.PeekNext | src/scanner.rs:158-164 | the character after the cursor, and NUL when the cursor is on the last character |
| Scanner.Advance | src/scanner.rs:188-191 | returns the character at the cursor and moves one past it |
| Scanner.Error | src/scanner.rs:43-45 | the message starts with `[line : `, then a numeral that reads back as the line, then `] Error : ` and the message |
| Scanner.RenderedThenText | src/scanner.rs:44 | a rendered line number followed by `]` is exactly the digit run at the front, and reads back as the number |
| Scanner.ScanNumber | src/scanner.rs:142-155 | a number step consumes at least the first digit, stays on the same line, passes no line break, and its lexeme is exactly the consumed source text |
| Scanner.ScanIdentifier | src/scanner.rs:109-118 | an identifier step consumes the longest (ASCII) alphanumeric run, on the same line and passing no line break, with an empty lexeme; its type is the keyword table's entry for the consumed word, IDENTIFIER when the word is not in the table |
| Scanner.ScanOperator | src/scanner.rs:65-80 | the two-character type and one extra character exactly when `=` follows, otherwise the one-character type with the cursor just past the operator; no line break is passed |
| Scanner.MatchNext | src/scanner.rs:176-185 | consumes the next character exactly when it is the expected one; otherwise the cursor does not move |
| Scanner.RunEnd | src/scanner.rs:84-86 | the loops that advance while a test holds stop at the end of the longest run of matching characters, never past the input |
| Scanner.StringBody | src/scanner.rs:124-129 | the string loop stops at the first double quote or at the end, and the line counter grows by the line breaks passed |
| Scanner.ScanString | src/scanner.rs:123-139 | a completed string step consumes the closing quote and counts the line breaks inside the string |
| Scanner.ScanToken | src/scanner.rs:53-105 | each step consumes at least one character and never passes the end; the line moves by exactly the line breaks consumed, and the token carries the new line; a double quote, a digit and a letter hand the step to the string, number and identifier rules, and only those last two can give a NUMBER token |
| Scanner.ScanFrom | src/scanner.rs:29-36 | the token list holds no IGNORE token; its lines are sorted and lie between the current line and that line plus the breaks left; with a keyword table of reserved words, every NUMBER lexeme is a numeral (ASCII digits only) |
| Scanner.KeepToken | src/scanner.rs:31-34 | pushing the token of a step in front of what the rest of the loop kept keeps the list free of IGNORE tokens, its lines sorted and within the breaks of the remaining source, and its numbers numerals |
| Scanner.NumberStepIsNumeral | src/scanner.rs:142-155 | with a keyword table of reserved words, a step that yields a NUMBER token yields a numeral lexeme (ASCII digits only) |
| Scanner.NumberLexemeShape | src/scanner.rs:142-155 | the NUMBER lexeme is the exact source text, is a numeral, is followed by no digit, and leaves a dot unconsumed only when no digit follows it |
| Scanner.Scan | src/scanner.rs:29-40 | the whole scan has no IGNORE tokens, its lines lie in 1 to 1 plus the number of line breaks and never decrease, and its numbers are numerals (ASCII digits only) |
| ScannerProperties.PunctuationToken | src/scanner.rs:55-64 | each single-character punctuation mark gives its own token type, consumes one character, and keeps the line |
| ScannerProperties.TwoCharOperators | src/scanner.rs:65-80 | `!`, `=`, `<`, `>` followed by `=` give the two-character type and consume two characters; otherwise they give the one-character type and consume one |
| ScannerProperties.CommentSkip | src/scanner.rs:81-87 | `//` yields IGNORE and consumes up to, not including, the next line break or the end |
| ScannerProperties.LoneSlash | src/scanner.rs:88-90 | a `/` not followed by `/` is a SLASH token of one character |
| ScannerProperties.Whitespace | src/scanner.rs:92-98 | blanks give IGNORE on the same line; a line break gives IGNORE on the next line and moves the counter |
| ScannerProperties.StringLexeme | src/scanner.rs:130-137 | a terminated string yields the text between the quotes minus its last character on the line where it ends and resumes after the closing quote; `""` panics |
| ScannerProperties.UnterminatedStringFails | src/scanner.rs:130-131 | a string without a closing quote fails with the error text for "Unterminated string sequence" on the line where input ends, `[line : N] Error : ` prefixed |
| ScannerProperties.QuoteStartsString | src/scanner.rs:99 | a double quote hands the step to the string rule |
| ScannerProperties.NumberToken | src/scanner.rs:142-155 | a digit starts a NUMBER token whose lexeme is the longest numeral at the cursor |
| ScannerProperties.DigitStartsNumber | src/scanner.rs:100 | a digit hands the step to the number rule |
| ScannerProperties.IdentifierToken | src/scanner.rs:109-118 | a letter starts the longest alphanumeric run; the table gives its type, IDENTIFIER otherwise, and the lexeme is empty |
| ScannerProperties.UnexpectedCharacter | src/scanner.rs:103 | any other character fails with "unexpected token : c", with no line prefix |
| ScannerProperties.LineTracking | src/scanner.rs:92-94 | a step keeps the line counter equal to one plus the line breaks before the cursor, breaks inside strings included |
| ScannerProperties.ScanFromTracksLines | src/scanner.rs:29-36 | from a line counter in step with the cursor, the loop gives one end position per kept token, strictly increasing and past the cursor, and each token's line is one plus the line breaks before its own end |
| ScannerProperties.ScanTracksLines | src/scanner.rs:24-36 | starting on line 1, every token of a scan sits on one plus the line breaks before the end of the step that produced it, and those ends increase through the list |
| ScannerProperties.KeepStep | src/scanner.rs:31-34 | pushing a kept token whose line matches its end in front of the rest keeps the ends increasing and every line matching its end |
| ScannerProperties.EmptySource | src/scanner.rs:37-39 | the empty source gives the empty list: the EOF token is never appended |
| ScannerProperties.TrailingDotIsSeparate | src/scanner.rs:147-152 | `1.` scans as the number `1` followed by a dot |
| ScannerProperties.StringStep | src/scanner.rs:133-137 | the step on `"abc"` yields the string `ab` and resumes after the closing quote |
| ScannerProperties.StringLosesLastCharacter | src/scanner.rs:133-135 | the source `"abc"` scans to the single string `ab` |
| ScannerProperties.EmptyStringPanics | src/scanner.rs:133 | the source `""` makes the scan panic |
| ScannerProperties.FailingStepAborts | src/scanner.rs:32 | a step that fails ends the scan with exactly that step's error; no token is returned |
| ScannerProperties.LaterFailurePropagates | src/scanner.rs:29-36 | an error or panic from the rest of the loop after a successful step is the result of the whole scan |
| ScannerProperties.UnexpectedCharacterAbortsScan | src/scanner.rs:103 | the source `1 #` fails as a whole with "unexpected token : #", the number before it notwithstanding |
| ScannerProperties.HashFails | src/scanner.rs:103 | the step on `#` fails with "unexpected token : #" |
| ScannerProperties.NumberBeforeSpace | src/scanner.rs:142-155 | the first step on `1 #` is the NUMBER `1` on line 1, ending before the blank |
| ScannerProperties.UnterminatedStringAbortsScan | src/scanner.rs:130-131 | the source `"ab` fails as a whole with the unterminated-string error for line 1 |
| ScannerProperties.OpenStringFails | src/scanner.rs:123-131 | the step on `"ab` fails with the unterminated-string error for line 1 |
| Parser.IsAtEnd | src/parser.rs:352-354 | the cursor is at the end exactly where `peek` would index out of range |
| Parser.Check | src/parser.rs:324-327 | true exactly when there is a token at the cursor and it has the given type |
| Parser.Peek | src/parser.rs:330-332 | a token is seen exactly when the cursor is inside the list, and it is the token there |
| Parser.Previous | src/parser.rs:343-349 | the token before the cursor, the first token at 0, and a panic only on an empty list |
| Parser.Advance | src/parser.rs:335-340 | moves by exactly one unless at the end, and returns the token just before the new cursor (the last token at the end) |
| Parser.MatchNexts | src/parser.rs:313-327 | true exactly when a token is at the cursor and its type is listed; then exactly that token is consumed, else the cursor stays |
| Parser.Expression | src/parser.rs:215-217 | never moves the cursor back or past the end, moves it when there is a token, and fails only with expression errors |
| Parser.BinaryLevel | src/parser.rs:219-270 | each binary level keeps the cursor in range and moves it, and fails only with expression errors |
| Parser.BinaryTail | src/parser.rs:221-226 | the operator loop keeps the cursor in range and fails only with expression errors |
| Parser.ParseUnary | src/parser.rs:273-281 | `unary` moves the cursor when there is a token and fails only with expression errors |
| Parser.ParseLiteral | src/parser.rs:284-310 | `literal` moves the cursor when there is a token and fails only with expression errors |
| Parser.TokenLiteral | src/parser.rs:295-308 | a consumed token leaves the cursor after it, and the only failure is "Cant parse literal" |
| Parser.ExpectSemicolon | src/parser.rs:132-137 | succeeds exactly when a `;` is at the cursor, then returns the statement unchanged and consumes only the `;`; otherwise fails without moving |
| Parser.ParseStatement | src/parser.rs:139-141 | a parsed statement consumes tokens, contains no Declaration, and fails only with statement errors |
| Parser.BreakStatement | src/parser.rs:143-151 | the break rule consumes tokens on success and fails only with statement errors |
| Parser.IfCondition | src/parser.rs:153-158 | the if rule consumes tokens on success and fails only with statement errors |
| Parser.ParseIf | src/parser.rs:162-168 | an if statement consumes tokens and fails only with statement errors |
| Parser.Scope | src/parser.rs:171-176 | the scope rule consumes tokens on success and fails only with statement errors |
| Parser.ParseScope | src/parser.rs:180-191 | a braced block yields a Scope with no Declaration inside |
| Parser.ScopeBody | src/parser.rs:182-190 | the scope loop keeps the statements already parsed as a prefix of the result |
| Parser.ParseDeclaration | src/parser.rs:194-200 | the assignment-or-expression rule consumes tokens up to and including a `;` on success, and fails only with statement errors; the statement is the `assignment` parse when the first token is an identifier, and otherwise the `expression` parse wrapped as an expression statement |
| Parser.ParseAssignment | src/parser.rs:203-209 | an assignment names the identifier token it started on and assigns exactly the expression parsed after the `=`, ending where that expression ends; without `=` it fails with "expected Equals" after the identifier, and an expression failure is passed on |
| Parser.ExprStatement | src/parser.rs:211-213 | an expression statement wraps exactly the expression parsed at the cursor and ends where it ends; when the expression fails, its error or panic is passed on unchanged |
| Parser.FuncArgs | src/parser.rs:105-129 | succeeds exactly on `( identifier )`, giving that one name and the cursor after the `)`; the only failures are the three argument messages |
| Parser.FunctionDeclaration | src/parser.rs:88-102 | a declaration starts with `fun` and an identifier, is named by that identifier's lexeme, has as its one parameter the identifier inside `( )` right after the name, and has as its body the scope parsed after the `)`, ending where that scope ends |
| Parser.FunctionRest | src/parser.rs:96-98 | after the name, a declaration's parameters are exactly what `func_args` gives there, ending three tokens on, and its body is exactly the scope parsed from that point, ending where the scope ends; it carries the name already read |
| Parser.ProgramLoop | src/parser.rs:65-86 | the table is returned only when no error was recorded, and each key names its function; otherwise 1 to 6 errors, each with a declaration message and a token of the list |
| Parser.ErrorsExtend | src/parser.rs:75-79 | the error just pushed stays at its place in the final list and every later error is listed and tagged with a token of the list |
| Parser.Enter | src/parser.rs:71-72 | inserting a function puts it under its own name, replacing an earlier entry of that name, leaves every other entry as it was, and keeps every entry keyed by its function's name |
| Parser.ParseProgram | src/parser.rs:65-86 | `program` gives the function table keyed by name, or between one and six errors with declaration messages and tokens of the list |
| ParserProperties.LiteralConsumesOneToken | src/parser.rs:294-308 | a token other than `(` is consumed; NUMBER, STRING, NIL, FALSE, TRUE and IDENTIFIER give their expressions, anything else "Cant parse literal"; at the end the last token is read again |
| ParserProperties.LiteralOnNoTokens | src/parser.rs:343-345 | `literal` on an empty list panics |
| ParserProperties.ParenthesisedExpression | src/parser.rs:285-293 | after `( e`, a token other than `)` gives "Expected right parenthesis" whatever `e` gave; a `)` is consumed and `e`'s own result returned |
| ParserProperties.UnaryChain | src/parser.rs:273-281 | a run of `-` and `!` before an atom nests into Unary nodes, the first operator outermost |
| ParserProperties.OperatorsDisjoint | src/parser.rs:221-263 | an operator of one level is no operator of a tighter level |
| ParserProperties.AtomOperand | src/parser.rs:219-270 | an atom followed by no operator of its level or a tighter one is a complete operand at that level |
| ParserProperties.TailStops | src/parser.rs:221-227 | an operator loop stops at once, keeping the tree so far, before a token that is not one of its operators |
| ParserProperties.AtomIsOperand | src/parser.rs:261-270 | an atom followed by no tighter operator is the operand each level reads |
| ParserProperties.BinaryTailStep | src/parser.rs:263-268 | one turn of an operator loop makes the tree so far the left child of the new node |
| ParserProperties.BinaryTailFoldsLeft | src/parser.rs:263-269 | the operator loop turns a chain of (operator, atom) pairs into its left fold |
| ParserProperties.LeftAssociative | src/parser.rs:219-270 | every binary level is left-associative: `a op b op c` is `(a op b) op c` |
| ParserProperties.Lift | src/parser.rs:219-228 | a parse that stops before any looser operator is also the parse at the looser levels |
| ParserProperties.WholeListLifts | src/parser.rs:215-217 | a parse of the whole list at one level is the whole expression |
| ParserProperties.TighterOperatorOnTheRight | src/parser.rs:249-258 | `a loose b tight c` groups as `a loose (b tight c)` for any two levels |
| ParserProperties.TailTakesOperand | src/parser.rs:232-245 | a matched operator above the lowest level takes the next level's parse as its right operand and the loop continues after it |
| ParserProperties.TighterOperatorOnTheLeft | src/parser.rs:249-258 | `a tight b loose c` groups as `(a tight b) loose c` for any two levels |
| ParserProperties.SubtractionIsLeftAssociative | src/parser.rs:249-257 | `1 - 2 - 3` is `(1 - 2) - 3` |
| ParserProperties.AdditionThenMultiplication | src/parser.rs:249-269 | `1 + 2 * 3` is `1 + (2 * 3)` |
| ParserProperties.MultiplicationThenAddition | src/parser.rs:249-269 | `1 * 2 + 3` is `(1 * 2) + 3` |
| ParserProperties.PrefixOperatorsNest | src/parser.rs:273-281 | `! - x` is `!(-(x))` |
| ParserProperties.StatementDispatch | src/parser.rs:139-176 | statements are tried as break, then if, then `{`, then assignment or expression |
| ParserProperties.AssignmentStatementParses | src/parser.rs:194-209 | a statement starting with an identifier whose assignment parses and is followed by `;` is that assignment, ending after the `;` |
| ParserProperties.ExpressionStatementParses | src/parser.rs:194-213 | a statement starting with none of `break`, `if`, `{` or an identifier, whose expression parses and is followed by `;`, is that expression as an expression statement, ending after the `;` |
| ParserProperties.IdentifierStartsAssignment | src/parser.rs:194-209 | a statement starting with an identifier not followed by `=` fails with "expected Equals after variable declaration" |
| ParserProperties.SemicolonRequired | src/parser.rs:132-151 | a statement that does not start with `if` or `{` ends with a `;` when it parses |
| ParserProperties.IfTakesOneStatement | src/parser.rs:162-168 | an if statement holds its condition and exactly one following statement, with no else |
| ParserProperties.ClosingBraceUnreachable | src/parser.rs:183-186 | "Expected closing brace at the end of scope" is produced by no statement and no program |
| ParserProperties.AtomAssignment | src/parser.rs:203-209 | `identifier = atom ;` is one assignment of that identifier token |
| ParserProperties.ScopeBodyCollects | src/parser.rs:182-190 | the scope loop appends the statements it parses, in order, up to the `}` |
| ParserProperties.ScopeKeepsSourceOrder | src/parser.rs:180-191 | a scope holds the statements between its braces in source order and ends after the `}` |
| ParserProperties.EmptyScope | src/parser.rs:180-191 | `{ }` is the empty scope |
| ParserProperties.AssignmentOfAtom | src/parser.rs:203-209 | `identifier = atom` is an assignment of that identifier to the atom, ending before the next token |
| ParserProperties.NoParametersRejected | src/parser.rs:112-116 | `()` fails with "Expected identifier" |
| ParserProperties.SecondParameterRejected | src/parser.rs:117-125 | `( a ,` fails with "Expected identifier" at the comma, which is never consumed |
| ParserProperties.DeclarationStep | src/parser.rs:69-73 | a declaration that parses is entered in the table under its name, and the loop continues after it |
| ParserProperties.FailedDeclaration | src/parser.rs:74-79 | a declaration that fails is recorded, against the token before where it stopped, right after the failures already held, and the result is then never a table; unless that makes six failures, the loop goes on parsing from where the declaration stopped |
| ParserProperties.LastDeclaration | src/parser.rs:68-83 | a declaration that parses up to the end returns the table it completes |
| ParserProperties.SingleFunction | src/parser.rs:65-86 | a list that is one complete declaration gives a table of exactly that function |
| ParserProperties.LaterDeclarationWins | src/parser.rs:70-73 | of two declarations with the same name, the later one is kept |
| ParserProperties.StuckLoop | src/parser.rs:74-78 | without a `fun`, the loop records the same error until six are held |
| ParserProperties.NonFunctionStartGivesSixErrors | src/parser.rs:65-100 | a list that does not start with `fun` gives exactly six errors, all tagged with the first token |
| ParserProperties.EmptyProgram | src/parser.rs:65-86 | the empty list gives the empty table |
| Statements.AssignmentAccessors | src/statement.rs:30-43 | `identifier()` and `expr()` return exactly what `new` stored |
| Statements.DeclarationFields | src/statement.rs:56-62 | `new` stores the type, the identifier and the optional initialiser unchanged, and the initialiser may be absent |
| Statements.IfStatementAccessors | src/statement.rs:72-85 | `condition()` and `statement()` return the condition and the single body statement |

## Left out

- `src/main.rs`: argument parsing, file loading and exit codes are I/O.
- The conversion of a NUMBER lexeme to `f64` is modelled by the exact decimal value of the numeral. Floating-point rounding is not modelled.
- Parser.TokenLiteral: a NUMBER lexeme that is not a numeral is a panic, although Rust's `parse::<f64>` also accepts forms such as `1e3`, `inf` or `+1`. The scanner never produces those forms.
- The debug `println!` in `unary` (src/parser.rs:276) has no effect on the result.
- The `Display` text of `ParseError` (src/parser.rs:29-41) depends on `token.rs`, which is not part of this model. Only the token and the message are kept.
- Rust's Unicode `is_alphanumeric` and `is_numeric` are ASCII letters and digits here. Non-ASCII characters inside identifiers or numbers are not modelled. The first character is dispatched on ASCII ranges in the source too (src/scanner.rs:100-102), so only the continuation loops differ.
- Scanner.Scan: the "numbers are numerals" guarantee holds for the ASCII model only. Rust's `is_numeric` also accepts characters such as `½` after the first digit, so `1½` scans to the NUMBER `1½` there, and the `unwrap` in `literal` then panics; this model rejects `½` with "unexpected token" instead, and that panic is not modelled.
- Scanner.NumberStepIsNumeral: holds because digits are ASCII here. With Rust's Unicode `is_numeric` a NUMBER lexeme can hold non-ASCII numeric characters and is then no numeral.
- Scanner.ScanFrom: its NUMBER guarantee is stated for ASCII digits, for the reason given under Scanner.Scan.
- Scanner.ScanIdentifier: continues over ASCII letters and digits only; Rust's `is_alphanumeric` would also continue over non-ASCII letters.
- The contents of the keyword table (`keywords.rs`) are not part of this model. The table is a parameter `keywords`, and the properties that depend on it assume only that its entries are reserved-word types.
- Parser.ParseIf: requires a token at the cursor. It is reached only after `peek` has seen the `if`.
- Parser.ParseScope: requires a token at the cursor. It is reached only after `peek` has seen the `{`.
- Parser.ParseAssignment: requires a token at the cursor. It is reached only after `peek` has seen the identifier.
- The `usize` counters (`current`, `line`) are unbounded naturals. Overflow is out of reach for any input that fits in memory.
- The mutable `Scanner` and `Parser` structs are replaced by an explicit cursor and line passed in and returned.
- Parser.Expression: its contract states cursor progress and the possible error messages, not the tree. The trees of atom chains are stated by `ParserProperties.LeftAssociative`, `ParserProperties.TighterOperatorOnTheRight` and `ParserProperties.TighterOperatorOnTheLeft`.
- Parser.BinaryLevel: its contract states cursor progress and the possible error messages, not the tree. `ParserProperties.LeftAssociative` states that a level reads a chain of atoms as its left fold `LeftFold`.
- Parser.BinaryTail: its contract states cursor progress and the possible error messages, not the tree. `ParserProperties.BinaryTailFoldsLeft` states that the loop builds the left fold of the chain.
- Parser.ParseUnary: its contract states cursor progress and the possible error messages, not the tree. `ParserProperties.UnaryChain` states that prefix operators nest over the operand as `Prefixed` gives.
- Parser.ParseLiteral: its contract states cursor progress and the possible error messages, not the tree. `ParserProperties.LiteralConsumesOneToken`, `ParserProperties.ParenthesisedExpression` and `ParserProperties.LiteralOnNoTokens` state it.
- Parser.ParseStatement: its contract states cursor progress, the possible error messages and that no Declaration is built, not the tree. `ParserProperties.StatementDispatch` gives the rule taken, and `ParserProperties.AssignmentStatementParses`, `ParserProperties.ExpressionStatementParses`, `ParserProperties.IfTakesOneStatement` and `ParserProperties.ScopeKeepsSourceOrder` give the trees.
- Parser.BreakStatement: its contract states cursor progress, the possible error messages and that no Declaration is built, not the tree. `ParserProperties.StatementDispatch` states that `break` is the break statement closed by `;`.
- Parser.IfCondition: its contract states cursor progress, the possible error messages and that no Declaration is built, not the tree. `ParserProperties.IfTakesOneStatement` states it.
- Parser.Scope: its contract states cursor progress, the possible error messages and that no Declaration is built, not the tree. `ParserProperties.ScopeKeepsSourceOrder` and `ParserProperties.EmptyScope` state it.

=== FILE: expressions.dfy ===
/** Expression trees built by the parser (src/parser.rs:224, 278, 297-306).
    expression.rs is not part of this model; the shapes are reconstructed from
    the parser's uses. */
module Expressions {
  import opened Tokens

  /** `LiteralExpr`: the language has no booleans, they are numbers. Rust's f64
      is modelled by an exact real. */
  datatype LiteralExpr = Number(num: real) | Str(text: string)

  datatype Expr =
    | Binary(left: Expr, op: Token, right: Expr)
    | Unary(op: Token, operand: Expr)
    | Literal(literal: LiteralExpr)
    | Identifier(name: string)
}

=== FILE: numerals.dfy ===
/** Decimal digits: the numeral shape of NUMBER lexemes, the exact value such a
    lexeme denotes, and the decimal rendering of line numbers in scanner errors. */
module Numerals {
  import opened Wrappers

  /** The ASCII digits; on ASCII input this agrees with Rust's `char::is_numeric`. */
  predicate IsDigit(c: char) {
    '0' <= c <= '9'
  }

  predicate IsDigits(s: string) {
    forall i :: 0 <= i < |s| ==> IsDigit(s[i])
  }

  function DigitValue(c: char): nat
    requires IsDigit(c)
  {
    (c - '0') as nat
  }

  function DigitChar(d: nat): (c: char)
    requires d < 10
    ensures IsDigit(c) && DigitValue(c) == d
  {
    ('0' as int + d) as char
  }

  function Pow10(k: nat): (r: nat)
    ensures r > 0
  {
    if k == 0 then 1 else 10 * Pow10(k - 1)
  }

  /** Value of a run of decimal digits, most significant first. */
  function DigitsValue(s: string): nat
    requires IsDigits(s)
  {
    if s == [] then 0 else DigitsValue(s[..|s| - 1]) * 10 + DigitValue(s[|s| - 1])
  }

  /** Length of the longest run of digits at the front of `s`. */
  function DigitPrefix(s: string): (k: nat)
    ensures k <= |s|
    ensures IsDigits(s[..k])
    ensures k == |s| || !IsDigit(s[k])
  {
    if |s| > 0 && IsDigit(s[0]) then
      var k := 1 + DigitPrefix(s[1..]);
      assert s[..k] == [s[0]] + s[1..][..k - 1];
      k
    else 0
  }

  /** A NUMBER lexeme: one or more digits, optionally a dot and one or more digits. */
  predicate IsNumeral(s: string) {
    var k := DigitPrefix(s);
    0 < k && (k == |s| || (s[k] == '.' && k + 1 < |s| && IsDigits(s[k + 1..])))
  }

  /** Exact value of a numeral; None where `str::parse::<f64>` would be unwrapped
      on something that is not a numeral. */
  function NumeralValue(s: string): (r: Option<real>)
    ensures r.Some? <==> IsNumeral(s)
    ensures r.Some? && DigitPrefix(s) == |s| ==> r.value == DigitsValue(s) as real
  {
    if !IsNumeral(s) then None
    else
      var k := DigitPrefix(s);
      var whole := DigitsValue(s[..k]) as real;
      if k == |s| then
        assert s[..k] == s;
        Some(whole)
      else
        var fraction := s[k + 1..];
        Some(whole + DigitsValue(fraction) as real / Pow10(|fraction|) as real)
  }

  /** Decimal rendering of a natural number, as `format!("{}", n)` prints it. */
  function NatToString(n: nat): (s: string)
    ensures |s| > 0 && IsDigits(s)
    ensures s[0] == '0' ==> n == 0
  {
    if n < 10 then [DigitChar(n)] else NatToString(n / 10) + [DigitChar(n % 10)]
  }

  /** Reading back a rendered number gives the number. */
  lemma {:induction false} NatToStringRoundTrip(n: nat)
    ensures DigitsValue(NatToString(n)) == n
  {
    var s := NatToString(n);
    if n >= 10 {
      assert s[..|s| - 1] == NatToString(n / 10);
      NatToStringRoundTrip(n / 10);
    }
  }

  /** Every rendered number is itself a numeral with no fractional part. */
  lemma NatToStringIsNumeral(n: nat)
    ensures IsNumeral(NatToString(n))
    ensures NumeralValue(NatToString(n)) == Some(n as real)
  {
    var s := NatToString(n);
    AllDigitsPrefix(s);
    NatToStringRoundTrip(n);
  }

  lemma {:induction false} AllDigitsPrefix(s: string)
    requires IsDigits(s)
    ensures DigitPrefix(s) == |s|
  {
    if |s| > 0 {
      AllDigitsPrefix(s[1..]);
    }
  }

  /** A digit run ended by a non-digit (or the end) is the digit prefix. */
  lemma {:induction false} DigitPrefixIs(s: string, k: nat)
    requires k <= |s| && IsDigits(s[..k]) && (k == |s| || !IsDigit(s[k]))
    ensures DigitPrefix(s) == k
  {
    if k > 0 {
      assert s[1..][..k - 1] == s[1..k];
      DigitPrefixIs(s[1..], k - 1);
    }
  }
}

=== FILE: parser.dfy ===
/** The recursive-descent parser of src/parser.rs: a cursor over the token list,
    six precedence levels, statement dispatch and a top-level loop that collects
    up to six errors. Every parse function takes the token list and the cursor
    and returns the cursor it leaves behind. Indexing past the end of the token
    list (there is no EOF token to stop at) is a Rust panic, modelled as `Panic`. */
module Parser {
  import opened Wrappers
  import opened Tokens
  import opened Numerals
  import opened Expressions
  import opened Statements

  /** A sub-parse: a value, a message (both with the cursor left behind), or a panic. */
  datatype Parsed<+T> = Ok(value: T, pos: nat) | Err(message: string, pos: nat) | Panic {

    /** The failure of `?`, carried over to another value type. */
    function Propagate<U>(): Parsed<U>
      requires !Ok?
    {
      if Err? then Err(message, pos) else Parsed.Panic
    }
  }

  /** `ParseError`: the message and the token the cursor had last consumed. */
  datatype ParseError = ParseError(token: Token, message: string)

  /** The result of `program`: the function table, the errors, or a panic. */
  datatype ProgramResult =
    | Program(functions: map<string, FunctionDecl>)
    | Errors(errors: seq<ParseError>)
    | Panic

  const ExpectedFunction := "error : expected function declaration there"
  const ExpectedFunctionName := "Expected identifier after function"
  const ExpectedLeftParen := "Expected left parenthesis after function name"
  const ExpectedIdentifier := "Expected identifier"
  const ExpectedComma := "Expected comma after identifier"
  const ExpectedSemicolon := "Expected semicolon at the end of statement"
  const ExpectedClosingBrace := "Expected closing brace at the end of scope"
  const ExpectedEquals := "expected Equals after variable declaration"
  const ExpectedRightParen := "Expected right parenthesis"
  const CantParseLiteral := "Cant parse literal"

  /** The messages each layer of the grammar can fail with. */
  const ExprErrors: set<string> := {ExpectedRightParen, CantParseLiteral}
  const StatementErrors: set<string> := ExprErrors + {ExpectedSemicolon, ExpectedEquals}
  const DeclErrors: set<string> :=
    StatementErrors + {ExpectedFunction, ExpectedFunctionName, ExpectedLeftParen, ExpectedIdentifier, ExpectedComma}

  /** The cursor never leaves `0..|ts|`; a parse that did not panic leaves it at or
      after where it started, and strictly after when there was a token to read. */
  predicate Within<T>(ts: seq<Token>, pos: nat, r: Parsed<T>) {
    !r.Panic? ==> pos <= r.pos <= |ts|
  }

  predicate Advances<T>(ts: seq<Token>, pos: nat, r: Parsed<T>) {
    && Within(ts, pos, r)
    && (pos < |ts| && !r.Panic? ==> pos < r.pos)
  }

  // ---------------------------------------------------------------- cursor

  /** `is_at_end`: the cursor is exactly where `peek` would index out of range. */
  function IsAtEnd(ts: seq<Token>, pos: nat): (b: bool)
    ensures b <==> Peek(ts, pos).None?
  {
    pos >= |ts|
  }

  /** `peek`: the token at the cursor; None where Rust indexes out of range. */
  function Peek(ts: seq<Token>, pos: nat): (r: Option<Token>)
    ensures r.Some? <==> pos < |ts|
    ensures r.Some? ==> r.value == ts[pos]
  {
    if pos < |ts| then Some(ts[pos]) else None
  }

  /** `previous`: the token before the cursor, or the first token at position 0;
      None where Rust indexes an empty list. */
  function Previous(ts: seq<Token>, pos: nat): (r: Option<Token>)
    requires pos <= |ts|
    ensures r.Some? <==> |ts| > 0
    ensures r.Some? && pos > 0 ==> r.value == ts[pos - 1]
    ensures r.Some? && pos == 0 ==> r.value == ts[0]
  {
    if pos == 0 then (if |ts| == 0 then None else Some(ts[0])) else Some(ts[pos - 1])
  }

  /** `advance`: move one token on unless at the end, then return `previous`. */
  function Advance(ts: seq<Token>, pos: nat): (r: (Option<Token>, nat))
    requires pos <= |ts|
    ensures r.1 == if pos < |ts| then pos + 1 else pos
    ensures r.0.Some? <==> |ts| > 0
    ensures r.0.Some? ==> 0 < r.1 && r.0.value == ts[r.1 - 1]
  {
    var next := if IsAtEnd(ts, pos) then pos else pos + 1;
    (Previous(ts, next), next)
  }

  /** `check`: the cursor is on a token of type `kind`; never moves the cursor. */
  function Check(ts: seq<Token>, pos: nat, kind: TokenType): (b: bool)
    ensures b <==> Peek(ts, pos).Some? && Peek(ts, pos).value.kind == kind
  {
    !(IsAtEnd(ts, pos) || !ts[pos].IsType(kind))
  }

  /** `match_nexts`: consume the token at the cursor if its type is one of `kinds`. */
  function MatchNexts(ts: seq<Token>, pos: nat, kinds: seq<TokenType>): (r: (bool, nat))
    requires pos <= |ts|
    ensures r.0 <==> pos < |ts| && ts[pos].kind in kinds
    ensures r.1 == if r.0 then pos + 1 else pos
  {
    if |kinds| == 0 then (false, pos)
    else if Check(ts, pos, kinds[0]) then (true, Advance(ts, pos).1)
    else MatchNexts(ts, pos, kinds[1..])
  }

  // ---------------------------------------------------------------- expressions

  /** Binary precedence levels, loosest first in the grammar. */
  const MultiplicationLevel: nat := 1
  const AdditionLevel: nat := 2
  const ComparisonLevel: nat := 3
  const EqualityLevel: nat := 4

  /** The operators each binary level matches, in the source's order. */
  function Operators(level: nat): seq<TokenType>
    requires 1 <= level <= 4
  {
    if level == EqualityLevel then [EqualEqual, BangEqual]
    else if level == ComparisonLevel then [GreaterEqual, LessEqual, Greater, Less]
    else if level == AdditionLevel then [Minus, Plus]
    else [Star, Slash]
  }

  /** `expression`: the loosest level, equality. */
  function Expression(ts: seq<Token>, pos: nat): (r: Parsed<Expr>)
    requires pos <= |ts|
    ensures Advances(ts, pos, r)
    ensures r.Err? ==> r.message in ExprErrors
    decreases |ts| - pos, 11
  {
    BinaryLevel(ts, pos, EqualityLevel)
  }

  /** `equality`, `comparison`, `addition` and `multiplication`: one operand of the
      next tighter level, then any number of (operator, operand) pairs. */
  function BinaryLevel(ts: seq<Token>, pos: nat, level: nat): (r: Parsed<Expr>)
    requires pos <= |ts| && 1 <= level <= 4
    ensures Advances(ts, pos, r)
    ensures r.Err? ==> r.message in ExprErrors
    decreases |ts| - pos, 2 * level + 2
  {
    var first := if level == 1 then ParseUnary(ts, pos) else BinaryLevel(ts, pos, level - 1);
    if !first.Ok? then first else BinaryTail(ts, first.value, first.pos, level)
  }

  /** The `while match_nexts(..)` loop of a binary level: each matched operator
      makes the tree so far the left child of a new Binary node. */
  function BinaryTail(ts: seq<Token>, left: Expr, pos: nat, level: nat): (r: Parsed<Expr>)
    requires pos <= |ts| && 1 <= level <= 4
    ensures Within(ts, pos, r)
    ensures r.Err? ==> r.message in ExprErrors
    decreases |ts| - pos, 2 * level + 1
  {
    var m := MatchNexts(ts, pos, Operators(level));
    if !m.0 then Ok(left, pos)
    else
      var op := Previous(ts, m.1).value;
      var right := if level == 1 then ParseUnary(ts, m.1) else BinaryLevel(ts, m.1, level - 1);
      if !right.Ok? then right
      else BinaryTail(ts, Binary(left, op, right.value), right.pos, level)
  }

  /** `unary`: prefix `-` and `!` nest to the right; otherwise a literal. */
  function ParseUnary(ts: seq<Token>, pos: nat): (r: Parsed<Expr>)
    requires pos <= |ts|
    ensures Advances(ts, pos, r)
    ensures r.Err? ==> r.message in ExprErrors
    decreases |ts| - pos, 2
  {
    var m := MatchNexts(ts, pos, [Minus, Bang]);
    if m.0 then
      var op := Previous(ts, m.1).value;
      var operand := ParseUnary(ts, m.1);
      if operand.Ok? then Ok(Unary(op, operand.value), operand.pos) else operand
    else ParseLiteral(ts, pos)
  }

  /** `literal`: a parenthesised expression, or one consumed token. */
  function ParseLiteral(ts: seq<Token>, pos: nat): (r: Parsed<Expr>)
    requires pos <= |ts|
    ensures Advances(ts, pos, r)
    ensures r.Err? ==> r.message in ExprErrors
    decreases |ts| - pos, 1
  {
    var m := MatchNexts(ts, pos, [LeftParen]);
    if m.0 then
      var inner := Expression(ts, m.1);
      if inner.Panic? then Parsed.Panic
      else
        var closing := Peek(ts, inner.pos);
        if closing.None? then Parsed.Panic
        else if closing.value.IsType(RightParen) then
          // consume `)` and hand back the inner result, success or failure
          var after := Advance(ts, inner.pos).1;
          if inner.Ok? then Ok(inner.value, after) else Err(inner.message, after)
        else Err(ExpectedRightParen, inner.pos)
    else
      var (token, after) := Advance(ts, pos);
      if token.None? then Parsed.Panic else TokenLiteral(token.value, after)
  }

  /** The `match` on the consumed token's type in `literal`. A NUMBER lexeme that
      is not a numeral is where Rust's `unwrap` panics. */
  function TokenLiteral(t: Token, after: nat): (r: Parsed<Expr>)
    ensures !r.Panic? ==> r.pos == after
    ensures r.Err? ==> r.message == CantParseLiteral
  {
    match t.kind
    case NumberLit =>
      var v := NumeralValue(t.lexeme);
      if v.None? then Parsed.Panic else Ok(Literal(Number(v.value)), after)
    case StringLit => Ok(Literal(Str(t.lexeme)), after)
    case Nil => Ok(Literal(Number(0.0)), after)
    case False => Ok(Literal(Number(0.0)), after)
    case True => Ok(Literal(Number(1.0)), after)
    case Ident => Ok(Identifier(t.lexeme), after)
    case _ => Err(CantParseLiteral, after)
  }

  // ---------------------------------------------------------------- statements

  /** `expect_semicolon`: the statement, if a `;` follows. */
  function ExpectSemicolon(ts: seq<Token>, statement: Statement, pos: nat): (r: Parsed<Statement>)
    requires pos <= |ts|
    ensures r.Ok? <==> Check(ts, pos, Semicolon)
    ensures r.Ok? ==> r.value == statement && r.pos == pos + 1
    ensures r.Err? ==> r.message == ExpectedSemicolon && r.pos == pos
  {
    var m := MatchNexts(ts, pos, [Semicolon]);
    if m.0 then Ok(statement, m.1) else Err(ExpectedSemicolon, pos)
  }

  /** `statement`: the dispatch starts with the break rule. */
  function ParseStatement(ts: seq<Token>, pos: nat): (r: Parsed<Statement>)
    requires pos <= |ts|
    ensures Advances(ts, pos, r) && (r.Ok? ==> pos < r.pos)
    ensures r.Err? ==> r.message in StatementErrors
    ensures r.Ok? ==> NoDeclarations(r.value)
    decreases |ts| - pos, 10
  {
    BreakStatement(ts, pos)
  }

  /** `break_statement`: `break ;`, else the if rule. */
  function BreakStatement(ts: seq<Token>, pos: nat): (r: Parsed<Statement>)
    requires pos <= |ts|
    ensures Advances(ts, pos, r) && (r.Ok? ==> pos < r.pos)
    ensures r.Err? ==> r.message in StatementErrors
    ensures r.Ok? ==> NoDeclarations(r.value)
    decreases |ts| - pos, 9
  {
    var t := Peek(ts, pos);
    if t.None? then Parsed.Panic
    else if t.value.IsType(Break) then ExpectSemicolon(ts, BreakStmt, Advance(ts, pos).1)
    else IfCondition(ts, pos)
  }

  /** `if_condition`: an if statement, else the scope rule. */
  function IfCondition(ts: seq<Token>, pos: nat): (r: Parsed<Statement>)
    requires pos <= |ts|
    ensures Advances(ts, pos, r) && (r.Ok? ==> pos < r.pos)
    ensures r.Err? ==> r.message in StatementErrors
    ensures r.Ok? ==> NoDeclarations(r.value)
    decreases |ts| - pos, 8
  {
    var t := Peek(ts, pos);
    if t.None? then Parsed.Panic
    else if t.value.IsType(If) then ParseIf(ts, pos)
    else Scope(ts, pos)
  }

  /** `parse_if`: `if` expression statement, with no else branch. Reached only
      once `peek` has seen the `if`. */
  function ParseIf(ts: seq<Token>, pos: nat): (r: Parsed<Statement>)
    requires pos < |ts|
    ensures Advances(ts, pos, r)
    ensures r.Err? ==> r.message in StatementErrors
    ensures r.Ok? ==> NoDeclarations(r.value)
    decreases |ts| - pos, 7
  {
    var afterIf := Advance(ts, pos).1;
    var cond := Expression(ts, afterIf);
    if !cond.Ok? then cond.Propagate()
    else
      var body := ParseStatement(ts, cond.pos);
      if !body.Ok? then body
      else Ok(IfStmt(IfStatement(cond.value, body.value)), body.pos)
  }

  /** `scope`: a braced block, else an assignment or expression statement. */
  function Scope(ts: seq<Token>, pos: nat): (r: Parsed<Statement>)
    requires pos <= |ts|
    ensures Advances(ts, pos, r) && (r.Ok? ==> pos < r.pos)
    ensures r.Err? ==> r.message in StatementErrors
    ensures r.Ok? ==> NoDeclarations(r.value)
    decreases |ts| - pos, 6
  {
    var t := Peek(ts, pos);
    if t.None? then Parsed.Panic
    else if t.value.IsType(LeftBrace) then ParseScope(ts, pos)
    else ParseDeclaration(ts, pos)
  }

  /** `parse_scope`: `{` statement* `}`. Reached only once `peek` has seen the `{`. */
  function ParseScope(ts: seq<Token>, pos: nat): (r: Parsed<Statement>)
    requires pos < |ts|
    ensures Advances(ts, pos, r)
    ensures r.Err? ==> r.message in StatementErrors
    ensures r.Ok? ==> r.value.ScopeStmt? && NoDeclarations(r.value)
    decreases |ts| - pos, 5
  {
    ScopeBody(ts, [], Advance(ts, pos).1)
  }

  /** The loop of `parse_scope`, with the statements parsed so far. */
  function ScopeBody(ts: seq<Token>, parsed: seq<Statement>, pos: nat): (r: Parsed<Statement>)
    requires pos <= |ts|
    requires forall i :: 0 <= i < |parsed| ==> NoDeclarations(parsed[i])
    ensures Advances(ts, pos, r)
    ensures r.Err? ==> r.message in StatementErrors
    ensures r.Ok? ==> r.value.ScopeStmt? && NoDeclarations(r.value)
    ensures r.Ok? ==> parsed <= r.value.statements
    decreases |ts| - pos, 11
  {
    var t := Peek(ts, pos);
    if t.None? then Parsed.Panic
    else if t.value.IsType(RightBrace) then Ok(ScopeStmt(parsed), Advance(ts, pos).1)
    else if IsAtEnd(ts, pos) then Err(ExpectedClosingBrace, pos)
    else
      var s := ParseStatement(ts, pos);
      if !s.Ok? then s
      else ScopeBody(ts, parsed + [s.value], s.pos)
  }

  /** `declaration`: an assignment when the cursor is on an identifier, else an
      expression statement; either way followed by `;`. */
  function ParseDeclaration(ts: seq<Token>, pos: nat): (r: Parsed<Statement>)
    requires pos <= |ts|
    ensures Advances(ts, pos, r) && (r.Ok? ==> pos < r.pos)
    ensures r.Err? ==> r.message in StatementErrors
    ensures r.Ok? ==> NoDeclarations(r.value) && ts[r.pos - 1].kind == Semicolon
    ensures r.Ok? ==> pos < |ts| && if ts[pos].kind == Ident then r.value.AssignStmt? else r.value.ExprStmt?
    ensures r.Ok? && r.value.AssignStmt? ==> ParseAssignment(ts, pos) == Ok(r.value, r.pos - 1)
    ensures r.Ok? && r.value.ExprStmt? ==> Expression(ts, pos) == Ok(r.value.expr, r.pos - 1)
  {
    var t := Peek(ts, pos);
    if t.None? then Parsed.Panic
    else
      var d := if t.value.IsType(Ident) then ParseAssignment(ts, pos) else ExprStatement(ts, pos);
      if !d.Ok? then d else ExpectSemicolon(ts, d.value, d.pos)
  }

  /** `assignment`: identifier `=` expression. Reached only once `peek` has seen
      the identifier. */
  function ParseAssignment(ts: seq<Token>, pos: nat): (r: Parsed<Statement>)
    requires pos < |ts|
    ensures Advances(ts, pos, r)
    ensures r.Err? ==> r.message in StatementErrors
    ensures r.Ok? ==> r.value.AssignStmt? && r.value.assignment.identifier == ts[pos]
    ensures r.Ok? ==> && pos + 1 < |ts| && ts[pos + 1].kind == Equal
                      && Expression(ts, pos + 2) == Ok(r.value.assignment.expr, r.pos)
    ensures (pos + 1 == |ts| || ts[pos + 1].kind != Equal) ==> r == Err(ExpectedEquals, pos + 1)
    ensures pos + 1 < |ts| && ts[pos + 1].kind == Equal && !Expression(ts, pos + 2).Ok? ==>
              r == Expression(ts, pos + 2).Propagate()
  {
    var (ident, afterIdent) := Advance(ts, pos);
    var m := MatchNexts(ts, afterIdent, [Equal]);
    if m.0 then
      var e := Expression(ts, m.1);
      if e.Ok? then Ok(AssignStmt(Assignment(ident.value, e.value)), e.pos)
      else e.Propagate()
    else Err(ExpectedEquals, afterIdent)
  }

  /** `expr_statement`: a bare expression. */
  function ExprStatement(ts: seq<Token>, pos: nat): (r: Parsed<Statement>)
    requires pos <= |ts|
    ensures Advances(ts, pos, r)
    ensures r.Err? ==> r.message in ExprErrors
    ensures r.Ok? ==> r.value.ExprStmt? && Expression(ts, pos) == Ok(r.value.expr, r.pos)
    ensures !Expression(ts, pos).Ok? ==> r == Expression(ts, pos).Propagate()
  {
    var e := Expression(ts, pos);
    if e.Ok? then Ok(ExprStmt(e.value), e.pos) else e.Propagate()
  }

  // ---------------------------------------------------------------- declarations

  /** `func_args`: `(` identifier, then a loop until `)`. The loop body checks for a
      comma and then for an identifier at the same, unmoved cursor; the two checks
      cannot both hold, so an iteration always fails and only `( name )` passes. */
  function FuncArgs(ts: seq<Token>, pos: nat): (r: Parsed<seq<string>>)
    requires pos <= |ts|
    ensures Within(ts, pos, r) && (r.Ok? ==> pos < r.pos)
    ensures r.Err? ==> r.message in {ExpectedLeftParen, ExpectedIdentifier, ExpectedComma}
    ensures r.Ok? <==> pos + 2 < |ts| && ts[pos].kind == LeftParen && ts[pos + 1].kind == Ident
                       && ts[pos + 2].kind == RightParen
    ensures r.Ok? ==> r.value == [ts[pos + 1].lexeme] && r.pos == pos + 3
  {
    if !Check(ts, pos, LeftParen) then Err(ExpectedLeftParen, pos)
    else
      var afterParen := Advance(ts, pos).1;
      if !Check(ts, afterParen, Ident) then Err(ExpectedIdentifier, afterParen)
      else
        var (name, afterName) := Advance(ts, afterParen);
        var args := [name.value.lexeme];
        var t := Peek(ts, afterName);
        if t.None? then Parsed.Panic
        else if t.value.IsType(RightParen) then Ok(args, Advance(ts, afterName).1)
        else if !Check(ts, afterName, Comma) then Err(ExpectedComma, afterName)
        else Err(ExpectedIdentifier, afterName)
  }

  /** `function_decl`: `fun` name parameters body, the body parsed by `scope`. */
  function FunctionDeclaration(ts: seq<Token>, pos: nat): (r: Parsed<FunctionDecl>)
    requires pos <= |ts|
    ensures Within(ts, pos, r)
    ensures r.Ok? ==> pos < r.pos
    ensures r.Err? ==> r.message in DeclErrors
    ensures r.Ok? ==> pos + 1 < |ts| && ts[pos].kind == Fun && ts[pos + 1].kind == Ident
                      && r.value.name == ts[pos + 1].lexeme && |r.value.params| == 1
                      && NoDeclarations(r.value.body)
    ensures r.Ok? ==> pos + 5 <= |ts| && FuncArgs(ts, pos + 2).Ok?
                      && r.value.params == [ts[pos + 3].lexeme]
                      && Scope(ts, pos + 5) == Ok(r.value.body, r.pos)
  {
    var t := Peek(ts, pos);
    if t.None? then Parsed.Panic
    else if !t.value.IsType(Fun) then Err(ExpectedFunction, pos)
    else
      var afterFun := Advance(ts, pos).1;
      if !Check(ts, afterFun, Ident) then Err(ExpectedFunctionName, afterFun)
      else
        var (name, afterName) := Advance(ts, afterFun);
        FunctionRest(ts, name.value.lexeme, afterName)
  }

  /** The parameters and the body of a declaration whose name has been read. */
  function FunctionRest(ts: seq<Token>, name: string, pos: nat): (r: Parsed<FunctionDecl>)
    requires pos <= |ts|
    ensures Within(ts, pos, r)
    ensures r.Err? ==> r.message in DeclErrors
    ensures r.Ok? ==> pos < r.pos && r.value.name == name && |r.value.params| == 1
                      && NoDeclarations(r.value.body)
    ensures r.Ok? ==> && pos + 3 <= |ts|
                      && FuncArgs(ts, pos) == Ok(r.value.params, pos + 3)
                      && Scope(ts, pos + 3) == Ok(r.value.body, r.pos)
  {
    var args := FuncArgs(ts, pos);
    if !args.Ok? then args.Propagate()
    else
      assert args.pos == pos + 3;
      var body := Scope(ts, pos + 3);
      if !body.Ok? then body.Propagate()
      else Ok(FunctionDecl(name, args.value, body.value), body.pos)
  }

  /** The loop of `program`: parse declarations until the end, recording a failure
      against `previous()` and giving up once more than five are recorded. */
  function ProgramLoop(ts: seq<Token>, pos: nat, functions: map<string, FunctionDecl>,
                       fails: seq<ParseError>): (r: ProgramResult)
    requires pos <= |ts| && |fails| <= 5
    requires forall k :: k in functions ==> functions[k].name == k
    ensures r.Program? ==> fails == [] && forall k :: k in r.functions ==> r.functions[k].name == k
    ensures r.Errors? ==> fails <= r.errors && 1 <= |r.errors| <= 6
    ensures r.Errors? ==> forall i :: |fails| <= i < |r.errors| ==>
              r.errors[i].message in DeclErrors && r.errors[i].token in ts
    decreases 6 - |fails|, |ts| - pos
  {
    if IsAtEnd(ts, pos) then
      if |fails| == 0 then Program(functions) else Errors(fails)
    else
      match FunctionDeclaration(ts, pos)
      case Panic => ProgramResult.Panic
      case Ok(f, next) =>
        ProgramLoop(ts, next, Enter(functions, f), fails)
      case Err(message, next) =>
        PreviousIsListed(ts, next);
        var fails' := fails + [ParseError(Previous(ts, next).value, message)];
        var r := if |fails'| > 5 then Errors(fails') else ProgramLoop(ts, next, functions, fails');
        ErrorsExtend(ts, fails, fails'[|fails|], r);
        r
  }

  /** An error list that extends `fails + [e]` with listed errors extends `fails`
      with listed errors. */
  lemma ErrorsExtend(ts: seq<Token>, fails: seq<ParseError>, e: ParseError, r: ProgramResult)
    requires e.message in DeclErrors && e.token in ts
    requires r.Errors? ==> fails + [e] <= r.errors
    requires r.Errors? ==> forall i :: |fails| + 1 <= i < |r.errors| ==>
               r.errors[i].message in DeclErrors && r.errors[i].token in ts
    ensures r.Errors? ==> fails <= r.errors && r.errors[|fails|] == e
    ensures r.Errors? ==> forall i :: |fails| <= i < |r.errors| ==>
              r.errors[i].message in DeclErrors && r.errors[i].token in ts
  {
    if r.Errors? {
      assert (fails + [e])[|fails|] == e;
    }
  }

  /** `functions.insert(name, f)`: `f` is entered under its own name, replacing
      any earlier entry of that name, and every entry stays keyed by its name. */
  function Enter(functions: map<string, FunctionDecl>, f: FunctionDecl): (r: map<string, FunctionDecl>)
    requires forall k :: k in functions ==> functions[k].name == k
    ensures f.name in r && r[f.name] == f
    ensures forall k :: k != f.name ==> (k in r <==> k in functions)
    ensures forall k :: k in functions && k != f.name ==> r[k] == functions[k]
    ensures forall k :: k in r ==> r[k].name == k
  {
    functions[f.name := f]
  }

  lemma PreviousIsListed(ts: seq<Token>, pos: nat)
    requires pos <= |ts|
    ensures Previous(ts, pos).Some? ==> Previous(ts, pos).value in ts
  {
  }

  /** `program`: the function table if no declaration failed, else the errors. */
  function ParseProgram(ts: seq<Token>): (r: ProgramResult)
    ensures r.Program? ==> forall k :: k in r.functions ==> r.functions[k].name == k
    ensures r.Errors? ==> 1 <= |r.errors| <= 6
    ensures r.Errors? ==> forall i :: 0 <= i < |r.errors| ==>
              r.errors[i].message in DeclErrors && r.errors[i].token in ts
  {
    ProgramLoop(ts, 0, map[], [])
  }
}

=== FILE: parser_properties.dfy ===
/** Properties of the parser: precedence and associativity of the expression
    grammar, literal values, statement dispatch, and the error policy of the
    top-level loop. */
module ParserProperties {
  import opened Wrappers
  import opened Tokens
  import opened Numerals
  import opened Expressions
  import opened Statements
  import opened Parser

  // ---------------------------------------------------------------- literals

  /** Tokens that `literal` turns into an expression without looking further. */
  predicate IsAtom(t: Token) {
    t.kind in {StringLit, Nil, False, True, Ident} || (t.kind == NumberLit && IsNumeral(t.lexeme))
  }

  /** The expression an atom stands for: booleans and nil are numbers, strings
      and identifiers keep their lexeme. */
  function AtomExpr(t: Token): Expr
    requires IsAtom(t)
  {
    match t.kind
    case NumberLit => Literal(Number(NumeralValue(t.lexeme).value))
    case StringLit => Literal(Str(t.lexeme))
    case Nil => Literal(Number(0.0))
    case False => Literal(Number(0.0))
    case True => Literal(Number(1.0))
    case Ident => Identifier(t.lexeme)
  }

  /** `literal` on a token other than `(` consumes it; an atom gives its
      expression and anything else gives "Cant parse literal". At the end of a
      non-empty list the cursor cannot move and the last token is read again. */
  lemma LiteralConsumesOneToken(ts: seq<Token>, pos: nat)
    requires pos <= |ts| && |ts| > 0
    requires pos == |ts| || ts[pos].kind != LeftParen
    ensures var t := if pos < |ts| then ts[pos] else ts[|ts| - 1];
            var after := if pos < |ts| then pos + 1 else pos;
            && (IsAtom(t) ==> ParseLiteral(ts, pos) == Ok(AtomExpr(t), after))
            && (!IsAtom(t) && t.kind != NumberLit ==> ParseLiteral(ts, pos) == Err(CantParseLiteral, after))
            && (t.kind == NumberLit && !IsNumeral(t.lexeme) ==> ParseLiteral(ts, pos) == Parsed.Panic)
  {
  }

  /** `literal` on an empty token list panics in `previous`. */
  lemma LiteralOnNoTokens()
    ensures ParseLiteral([], 0) == Parsed.Panic
  {
  }

  /** After `( e`, a token other than `)` gives "Expected right parenthesis"
      whether or not `e` parsed; a `)` is consumed and `e`'s own result returned. */
  lemma ParenthesisedExpression(ts: seq<Token>, pos: nat)
    requires pos < |ts| && ts[pos].kind == LeftParen
    ensures var inner := Expression(ts, pos + 1);
            && (inner.Panic? ==> ParseLiteral(ts, pos) == Parsed.Panic)
            && (!inner.Panic? && inner.pos == |ts| ==> ParseLiteral(ts, pos) == Parsed.Panic)
            && (!inner.Panic? && inner.pos < |ts| && ts[inner.pos].kind != RightParen
                ==> ParseLiteral(ts, pos) == Err(ExpectedRightParen, inner.pos))
            && (inner.Ok? && inner.pos < |ts| && ts[inner.pos].kind == RightParen
                ==> ParseLiteral(ts, pos) == Ok(inner.value, inner.pos + 1))
            && (inner.Err? && inner.pos < |ts| && ts[inner.pos].kind == RightParen
                ==> ParseLiteral(ts, pos) == Err(inner.message, inner.pos + 1))
  {
  }

  // ---------------------------------------------------------------- unary

  predicate IsPrefixOperator(k: TokenType) {
    k == Minus || k == Bang
  }

  /** `count` prefix operators from `pos` wrapped, innermost last, around `operand`. */
  function Prefixed(ts: seq<Token>, pos: nat, count: nat, operand: Expr): Expr
    requires pos + count <= |ts|
    decreases count
  {
    if count == 0 then operand else Unary(ts[pos], Prefixed(ts, pos + 1, count - 1, operand))
  }

  /** A run of `-` and `!` in front of an atom nests into Unary nodes, the first
      operator outermost. */
  lemma {:induction false} UnaryChain(ts: seq<Token>, pos: nat, count: nat)
    requires pos + count < |ts|
    requires forall i :: pos <= i < pos + count ==> IsPrefixOperator(ts[i].kind)
    requires IsAtom(ts[pos + count])
    ensures ParseUnary(ts, pos) == Ok(Prefixed(ts, pos, count, AtomExpr(ts[pos + count])), pos + count + 1)
    decreases count
  {
    if count == 0 {
      LiteralConsumesOneToken(ts, pos);
    } else {
      UnaryChain(ts, pos + 1, count - 1);
    }
  }

  // ---------------------------------------------------------------- binary levels

  /** `k` is an operator of level `level` or of a tighter one. */
  predicate IsOperatorUpTo(k: TokenType, level: nat)
    requires level <= 4
  {
    level > 0 && (k in Operators(level) || IsOperatorUpTo(k, level - 1))
  }

  /** The four operator sets are disjoint. */
  lemma {:induction false} OperatorsDisjoint(k: TokenType, level: nat)
    requires 1 <= level <= 4 && k in Operators(level)
    ensures !IsOperatorUpTo(k, level - 1)
  {
  }

  /** An atom followed by no operator of this level or a tighter one is a
      complete operand at this level. */
  lemma {:induction false} AtomOperand(ts: seq<Token>, pos: nat, level: nat)
    requires pos < |ts| && IsAtom(ts[pos]) && 1 <= level <= 4
    requires pos + 1 == |ts| || !IsOperatorUpTo(ts[pos + 1].kind, level)
    ensures BinaryLevel(ts, pos, level) == Ok(AtomExpr(ts[pos]), pos + 1)
    decreases level
  {
    if level == 1 {
      UnaryChain(ts, pos, 0);
    } else {
      AtomOperand(ts, pos, level - 1);
    }
    if pos + 1 < |ts| {
      OperatorsAbsent(ts[pos + 1].kind, level);
    }
    TailStops(ts, AtomExpr(ts[pos]), pos + 1, level);
  }

  /** The loop of a binary level stops at once before a token that is not one
      of its operators. */
  lemma TailStops(ts: seq<Token>, left: Expr, pos: nat, level: nat)
    requires pos <= |ts| && 1 <= level <= 4
    requires pos == |ts| || ts[pos].kind !in Operators(level)
    ensures BinaryTail(ts, left, pos, level) == Ok(left, pos)
  {
  }

  /** `count` (operator, atom) pairs of level `level` from `pos`, followed by the
      end or a token that is no operator of this level or a tighter one. */
  predicate IsChain(ts: seq<Token>, pos: nat, count: nat, level: nat)
    requires 1 <= level <= 4
  {
    && pos + 2 * count <= |ts|
    && (forall i :: 0 <= i < count ==> ts[pos + 2 * i].kind in Operators(level))
    && (forall i :: 0 <= i < count ==> IsAtom(ts[pos + 2 * i + 1]))
    && (pos + 2 * count == |ts| || !IsOperatorUpTo(ts[pos + 2 * count].kind, level))
  }

  /** The left-associative reading of a chain: each operator takes the tree so far
      as its left operand and the next atom as its right operand. */
  function LeftFold(ts: seq<Token>, left: Expr, pos: nat, count: nat, level: nat): Expr
    requires 1 <= level <= 4 && IsChain(ts, pos, count, level)
    decreases count
  {
    if count == 0 then left
    else
      assert ts[pos + 2 * 0 + 1] == ts[pos + 1];
      ChainTail(ts, pos, count, level);
      LeftFold(ts, Binary(left, ts[pos], AtomExpr(ts[pos + 1])), pos + 2, count - 1, level)
  }

  lemma ChainTail(ts: seq<Token>, pos: nat, count: nat, level: nat)
    requires 1 <= level <= 4 && count > 0 && IsChain(ts, pos, count, level)
    ensures IsChain(ts, pos + 2, count - 1, level)
  {
    forall i | 0 <= i < count - 1
      ensures ts[pos + 2 + 2 * i].kind in Operators(level) && IsAtom(ts[pos + 2 + 2 * i + 1])
    {
      assert pos + 2 + 2 * i == pos + 2 * (i + 1);
    }
  }

  /** An atom followed by no operator of a tighter level is a complete operand
      of the level above. */
  lemma AtomIsOperand(ts: seq<Token>, pos: nat, level: nat)
    requires pos < |ts| && IsAtom(ts[pos]) && 1 <= level <= 4
    requires pos + 1 == |ts| || !IsOperatorUpTo(ts[pos + 1].kind, level - 1)
    ensures (if level == 1 then ParseUnary(ts, pos) else BinaryLevel(ts, pos, level - 1))
            == Ok(AtomExpr(ts[pos]), pos + 1)
  {
    if level == 1 {
      UnaryChain(ts, pos, 0);
    } else {
      AtomOperand(ts, pos, level - 1);
    }
  }

  /** One turn of the loop of a binary level over an (operator, atom) pair. */
  lemma BinaryTailStep(ts: seq<Token>, left: Expr, pos: nat, level: nat)
    requires 1 <= level <= 4 && pos + 1 < |ts|
    requires ts[pos].kind in Operators(level) && IsAtom(ts[pos + 1])
    requires pos + 2 == |ts| || !IsOperatorUpTo(ts[pos + 2].kind, level - 1)
    ensures BinaryTail(ts, left, pos, level)
            == BinaryTail(ts, Binary(left, ts[pos], AtomExpr(ts[pos + 1])), pos + 2, level)
  {
    AtomIsOperand(ts, pos + 1, level);
  }

  /** The loop of a binary level turns a chain into its left fold. */
  lemma {:induction false} BinaryTailFoldsLeft(ts: seq<Token>, left: Expr, pos: nat, count: nat, level: nat)
    requires 1 <= level <= 4 && IsChain(ts, pos, count, level)
    ensures BinaryTail(ts, left, pos, level) == Ok(LeftFold(ts, left, pos, count, level), pos + 2 * count)
    decreases count
  {
    if count == 0 {
      if pos < |ts| {
        OperatorsAbsent(ts[pos].kind, level);
      }
    } else {
      assert ts[pos + 2 * 0].kind in Operators(level);
      assert IsAtom(ts[pos + 2 * 0 + 1]);
      if pos + 2 < |ts| && count > 1 {
        assert ts[pos + 2 * 1].kind in Operators(level);
        OperatorsDisjoint(ts[pos + 2].kind, level);
      }
      BinaryTailStep(ts, left, pos, level);
      ChainTail(ts, pos, count, level);
      BinaryTailFoldsLeft(ts, Binary(left, ts[pos], AtomExpr(ts[pos + 1])), pos + 2, count - 1, level);
    }
  }

  lemma OperatorsAbsent(k: TokenType, level: nat)
    requires 1 <= level <= 4 && !IsOperatorUpTo(k, level)
    ensures k !in Operators(level) && !IsOperatorUpTo(k, level - 1)
  {
  }

  /** Every binary level is left-associative: `a op b op c` at one level parses
      as `(a op b) op c`. */
  lemma LeftAssociative(ts: seq<Token>, pos: nat, count: nat, level: nat)
    requires 1 <= level <= 4 && pos < |ts| && IsAtom(ts[pos]) && IsChain(ts, pos + 1, count, level)
    ensures BinaryLevel(ts, pos, level)
            == Ok(LeftFold(ts, AtomExpr(ts[pos]), pos + 1, count, level), pos + 1 + 2 * count)
  {
    if pos + 1 < |ts| && count > 0 {
      assert ts[pos + 1 + 2 * 0].kind in Operators(level);
      OperatorsDisjoint(ts[pos + 1].kind, level);
    }
    AtomIsOperand(ts, pos, level);
    BinaryTailFoldsLeft(ts, AtomExpr(ts[pos]), pos + 1, count, level);
  }

  lemma {:induction false} UpToMonotone(k: TokenType, level: nat, target: nat)
    requires level <= target <= 4 && IsOperatorUpTo(k, level)
    ensures IsOperatorUpTo(k, target)
    decreases target - level
  {
    if level < target {
      UpToMonotone(k, level + 1, target);
    }
  }

  /** A parse at one level that stops before no operator of a looser level up to
      `target` is also the parse at `target`: the looser loops match nothing. */
  lemma {:induction false} Lift(ts: seq<Token>, pos: nat, e: Expr, p: nat, level: nat, target: nat)
    requires pos <= |ts| && 1 <= level <= target <= 4 && BinaryLevel(ts, pos, level) == Ok(e, p)
    requires p == |ts| || !IsOperatorUpTo(ts[p].kind, target)
    ensures BinaryLevel(ts, pos, target) == Ok(e, p)
    decreases target - level
  {
    if level < target {
      if p < |ts| && ts[p].kind in Operators(level + 1) {
        UpToMonotone(ts[p].kind, level + 1, target);
      }
      assert BinaryTail(ts, e, p, level + 1) == Ok(e, p);
      Lift(ts, pos, e, p, level + 1, target);
    }
  }

  /** A parse of the whole list at one level is the parse of the whole expression. */
  lemma WholeListLifts(ts: seq<Token>, pos: nat, e: Expr, level: nat)
    requires pos <= |ts| && 1 <= level <= 4 && BinaryLevel(ts, pos, level) == Ok(e, |ts|)
    ensures Expression(ts, pos) == Ok(e, |ts|)
  {
    Lift(ts, pos, e, |ts|, level, EqualityLevel);
  }

  /** In `a loose b tight c`, the level below `loose` reads `b tight c` to the end. */
  lemma TightPairAtEnd(ts: seq<Token>, pos: nat, tight: nat, loose: nat)
    requires 1 <= tight < loose <= 4 && pos + 5 == |ts|
    requires IsAtom(ts[pos + 2]) && IsAtom(ts[pos + 4]) && ts[pos + 3].kind in Operators(tight)
    ensures BinaryLevel(ts, pos + 2, loose - 1)
            == Ok(Binary(AtomExpr(ts[pos + 2]), ts[pos + 3], AtomExpr(ts[pos + 4])), |ts|)
  {
    var e := Binary(AtomExpr(ts[pos + 2]), ts[pos + 3], AtomExpr(ts[pos + 4]));
    PairAtLevel(ts, pos + 2, tight);
    assert BinaryLevel(ts, pos + 2, tight) == Ok(e, |ts|);
    Lift(ts, pos + 2, e, |ts|, tight, loose - 1);
  }

  /** `a loose b tight c` groups as `a loose (b tight c)`. */
  lemma TighterOperatorOnTheRight(ts: seq<Token>, pos: nat, tight: nat, loose: nat)
    requires 1 <= tight < loose <= 4 && pos + 5 == |ts|
    requires IsAtom(ts[pos]) && IsAtom(ts[pos + 2]) && IsAtom(ts[pos + 4])
    requires ts[pos + 1].kind in Operators(loose) && ts[pos + 3].kind in Operators(tight)
    ensures Expression(ts, pos)
            == Ok(Binary(AtomExpr(ts[pos]), ts[pos + 1],
                         Binary(AtomExpr(ts[pos + 2]), ts[pos + 3], AtomExpr(ts[pos + 4]))), |ts|)
  {
    var a := AtomExpr(ts[pos]);
    var right := Binary(AtomExpr(ts[pos + 2]), ts[pos + 3], AtomExpr(ts[pos + 4]));
    TightPairAtEnd(ts, pos, tight, loose);
    LooseNotTight(ts[pos + 1].kind, tight, loose);
    AtomOperand(ts, pos, loose - 1);
    TailTakesOperand(ts, a, pos + 1, loose, right, |ts|);
    TailStops(ts, Binary(a, ts[pos + 1], right), |ts|, loose);
    assert BinaryLevel(ts, pos, loose) == Ok(Binary(a, ts[pos + 1], right), |ts|);
    WholeListLifts(ts, pos, Binary(a, ts[pos + 1], right), loose);
  }

  /** A matched operator of a level above the lowest takes the next level's
      parse as its right operand and continues the loop after it. */
  lemma TailTakesOperand(ts: seq<Token>, left: Expr, pos: nat, level: nat, e: Expr, p: nat)
    requires 2 <= level <= 4 && pos < |ts| && ts[pos].kind in Operators(level)
    requires BinaryLevel(ts, pos + 1, level - 1) == Ok(e, p)
    ensures BinaryTail(ts, left, pos, level) == BinaryTail(ts, Binary(left, ts[pos], e), p, level)
  {
  }

  /** An operator of a looser level is no operator of the levels below it. */
  lemma LooseNotTight(k: TokenType, tight: nat, loose: nat)
    requires 1 <= tight < loose <= 4 && k in Operators(loose)
    ensures !IsOperatorUpTo(k, loose - 1) && !IsOperatorUpTo(k, tight)
  {
    OperatorsDisjoint(k, loose);
    if IsOperatorUpTo(k, tight) {
      UpToMonotone(k, tight, loose - 1);
    }
  }

  /** `a op b` followed by no operator of the level of `op` or a tighter one
      parses at that level as the single binary node. */
  lemma PairAtLevel(ts: seq<Token>, pos: nat, level: nat)
    requires 1 <= level <= 4 && pos + 3 <= |ts|
    requires IsAtom(ts[pos]) && ts[pos + 1].kind in Operators(level) && IsAtom(ts[pos + 2])
    requires pos + 3 == |ts| || !IsOperatorUpTo(ts[pos + 3].kind, level)
    ensures BinaryLevel(ts, pos, level) == Ok(Binary(AtomExpr(ts[pos]), ts[pos + 1], AtomExpr(ts[pos + 2])), pos + 3)
  {
    var left := AtomExpr(ts[pos]);
    OperatorsDisjoint(ts[pos + 1].kind, level);
    AtomIsOperand(ts, pos, level);
    if pos + 3 < |ts| {
      OperatorsAbsent(ts[pos + 3].kind, level);
    }
    BinaryTailStep(ts, left, pos + 1, level);
    TailStops(ts, Binary(left, ts[pos + 1], AtomExpr(ts[pos + 2])), pos + 3, level);
  }

  /** In `a tight b loose c`, the level below `loose` reads `a tight b` and
      stops at the loose operator. */
  lemma TightPairStopsAtLoose(ts: seq<Token>, pos: nat, tight: nat, loose: nat)
    requires 1 <= tight < loose <= 4 && pos + 5 == |ts|
    requires IsAtom(ts[pos]) && IsAtom(ts[pos + 2])
    requires ts[pos + 1].kind in Operators(tight) && ts[pos + 3].kind in Operators(loose)
    ensures BinaryLevel(ts, pos, loose - 1) == Ok(Binary(AtomExpr(ts[pos]), ts[pos + 1], AtomExpr(ts[pos + 2])), pos + 3)
  {
    LooseNotTight(ts[pos + 3].kind, tight, loose);
    PairAtLevel(ts, pos, tight);
    Lift(ts, pos, Binary(AtomExpr(ts[pos]), ts[pos + 1], AtomExpr(ts[pos + 2])), pos + 3, tight, loose - 1);
  }

  /** `a tight b loose c` groups as `(a tight b) loose c`. */
  lemma TighterOperatorOnTheLeft(ts: seq<Token>, pos: nat, tight: nat, loose: nat)
    requires 1 <= tight < loose <= 4 && pos + 5 == |ts|
    requires IsAtom(ts[pos]) && IsAtom(ts[pos + 2]) && IsAtom(ts[pos + 4])
    requires ts[pos + 1].kind in Operators(tight) && ts[pos + 3].kind in Operators(loose)
    ensures Expression(ts, pos)
            == Ok(Binary(Binary(AtomExpr(ts[pos]), ts[pos + 1], AtomExpr(ts[pos + 2])),
                         ts[pos + 3], AtomExpr(ts[pos + 4])), |ts|)
  {
    var left := Binary(AtomExpr(ts[pos]), ts[pos + 1], AtomExpr(ts[pos + 2]));
    var whole := Binary(left, ts[pos + 3], AtomExpr(ts[pos + 4]));
    TightPairStopsAtLoose(ts, pos, tight, loose);
    AtomIsOperand(ts, pos + 4, loose);
    assert BinaryTail(ts, left, pos + 3, loose) == BinaryTail(ts, whole, |ts|, loose);
    assert BinaryLevel(ts, pos, loose) == Ok(whole, |ts|);
    WholeListLifts(ts, pos, whole, loose);
  }

  // ---------------------------------------------------------------- examples

  function Tok(kind: TokenType, lexeme: string): Token {
    Token(1, kind, lexeme)
  }

  function Num(n: nat): Expr {
    Literal(Number(n as real))
  }

  lemma NumeralOf(n: nat)
    requires n < 10
    ensures IsAtom(Tok(NumberLit, [DigitChar(n)]))
    ensures AtomExpr(Tok(NumberLit, [DigitChar(n)])) == Num(n)
  {
    NatToStringIsNumeral(n);
  }

  /** `1 - 2 - 3` is `(1 - 2) - 3`. */
  lemma SubtractionIsLeftAssociative()
    ensures var ts := [Tok(NumberLit, "1"), Tok(Minus, ""), Tok(NumberLit, "2"), Tok(Minus, ""), Tok(NumberLit, "3")];
            Expression(ts, 0) == Ok(Binary(Binary(Num(1), Tok(Minus, ""), Num(2)), Tok(Minus, ""), Num(3)), 5)
  {
    var ts := [Tok(NumberLit, "1"), Tok(Minus, ""), Tok(NumberLit, "2"), Tok(Minus, ""), Tok(NumberLit, "3")];
    NumeralOf(1); NumeralOf(2); NumeralOf(3);
    assert IsChain(ts, 1, 2, AdditionLevel) by {
      assert forall i :: 0 <= i < 2 ==> ts[1 + 2 * i].kind == Minus;
    }
    LeftAssociative(ts, 0, 2, AdditionLevel);
    WholeListLifts(ts, 0, Binary(Binary(Num(1), Tok(Minus, ""), Num(2)), Tok(Minus, ""), Num(3)), AdditionLevel);
  }

  /** `1 + 2 * 3` is `1 + (2 * 3)`. */
  lemma AdditionThenMultiplication()
    ensures var ts := [Tok(NumberLit, "1"), Tok(Plus, ""), Tok(NumberLit, "2"), Tok(Star, ""), Tok(NumberLit, "3")];
            Expression(ts, 0) == Ok(Binary(Num(1), Tok(Plus, ""), Binary(Num(2), Tok(Star, ""), Num(3))), 5)
  {
    var ts := [Tok(NumberLit, "1"), Tok(Plus, ""), Tok(NumberLit, "2"), Tok(Star, ""), Tok(NumberLit, "3")];
    NumeralOf(1); NumeralOf(2); NumeralOf(3);
    TighterOperatorOnTheRight(ts, 0, MultiplicationLevel, AdditionLevel);
  }

  /** `1 * 2 + 3` is `(1 * 2) + 3`. */
  lemma MultiplicationThenAddition()
    ensures var ts := [Tok(NumberLit, "1"), Tok(Star, ""), Tok(NumberLit, "2"), Tok(Plus, ""), Tok(NumberLit, "3")];
            Expression(ts, 0) == Ok(Binary(Binary(Num(1), Tok(Star, ""), Num(2)), Tok(Plus, ""), Num(3)), 5)
  {
    var ts := [Tok(NumberLit, "1"), Tok(Star, ""), Tok(NumberLit, "2"), Tok(Plus, ""), Tok(NumberLit, "3")];
    NumeralOf(1); NumeralOf(2); NumeralOf(3);
    TighterOperatorOnTheLeft(ts, 0, MultiplicationLevel, AdditionLevel);
  }

  /** `! - x` is `!(-(x))`. */
  lemma PrefixOperatorsNest()
    ensures var ts := [Tok(Bang, ""), Tok(Minus, ""), Tok(Ident, "x")];
            Expression(ts, 0) == Ok(Unary(Tok(Bang, ""), Unary(Tok(Minus, ""), Identifier("x"))), 3)
  {
    var ts := [Tok(Bang, ""), Tok(Minus, ""), Tok(Ident, "x")];
    UnaryChain(ts, 0, 2);
    var e := Unary(Tok(Bang, ""), Unary(Tok(Minus, ""), Identifier("x")));
    assert BinaryLevel(ts, 0, MultiplicationLevel) == Ok(e, 3);
    WholeListLifts(ts, 0, e, MultiplicationLevel);
  }

  // ---------------------------------------------------------------- statements

  /** Statement dispatch tries `break`, then `if`, then `{`, then the
      assignment-or-expression rule. */
  lemma StatementDispatch(ts: seq<Token>, pos: nat)
    requires pos < |ts|
    ensures ts[pos].kind == Break ==> ParseStatement(ts, pos) == ExpectSemicolon(ts, BreakStmt, pos + 1)
    ensures ts[pos].kind == If ==> ParseStatement(ts, pos) == ParseIf(ts, pos)
    ensures ts[pos].kind == LeftBrace ==> ParseStatement(ts, pos) == ParseScope(ts, pos)
    ensures ts[pos].kind !in {Break, If, LeftBrace} ==> ParseStatement(ts, pos) == ParseDeclaration(ts, pos)
  {
    assert ParseStatement(ts, pos) == BreakStatement(ts, pos);
    if ts[pos].kind != Break {
      assert BreakStatement(ts, pos) == IfCondition(ts, pos);
      if ts[pos].kind != If {
        assert IfCondition(ts, pos) == Scope(ts, pos);
      }
    }
  }

  /** A statement that starts with an identifier is the assignment there,
      closed by its `;`. */
  lemma AssignmentStatementParses(ts: seq<Token>, pos: nat)
    requires pos < |ts| && ts[pos].kind == Ident
    ensures var a := ParseAssignment(ts, pos);
            a.Ok? && a.pos < |ts| && ts[a.pos].kind == Semicolon ==>
              ParseStatement(ts, pos) == Ok(a.value, a.pos + 1)
  {
    StatementDispatch(ts, pos);
  }

  /** Any other statement that is not `break`, `if` or a scope is the
      expression at the cursor, closed by its `;`. */
  lemma ExpressionStatementParses(ts: seq<Token>, pos: nat)
    requires pos < |ts| && ts[pos].kind !in {Break, If, LeftBrace, Ident}
    ensures var e := Expression(ts, pos);
            e.Ok? && e.pos < |ts| && ts[e.pos].kind == Semicolon ==>
              ParseStatement(ts, pos) == Ok(ExprStmt(e.value), e.pos + 1)
  {
    StatementDispatch(ts, pos);
  }

  /** A statement that starts with an identifier must be `identifier = expression`. */
  lemma IdentifierStartsAssignment(ts: seq<Token>, pos: nat)
    requires pos < |ts| && ts[pos].kind == Ident
    requires pos + 1 == |ts| || ts[pos + 1].kind != Equal
    ensures ParseStatement(ts, pos) == Err(ExpectedEquals, pos + 1)
  {
    StatementDispatch(ts, pos);
    assert ParseAssignment(ts, pos) == Err(ExpectedEquals, pos + 1);
  }

  /** Only the break and the assignment-or-expression rules demand a `;`. */
  lemma SemicolonRequired(ts: seq<Token>, pos: nat)
    requires pos < |ts| && ts[pos].kind !in {If, LeftBrace}
    ensures ParseStatement(ts, pos).Ok? ==> ts[ParseStatement(ts, pos).pos - 1].kind == Semicolon
  {
    StatementDispatch(ts, pos);
    if ts[pos].kind == Break {
      assert ParseStatement(ts, pos) == ExpectSemicolon(ts, BreakStmt, pos + 1);
    } else {
      assert ParseStatement(ts, pos) == ParseDeclaration(ts, pos);
    }
  }

  /** An if statement holds one body statement; whatever follows the body is
      left for the enclosing rule. */
  lemma IfTakesOneStatement(ts: seq<Token>, pos: nat)
    requires pos < |ts| && ts[pos].kind == If
    ensures var cond := Expression(ts, pos + 1);
            cond.Ok? && ParseStatement(ts, cond.pos).Ok? ==>
              ParseStatement(ts, pos) == Ok(IfStmt(IfStatement(cond.value, ParseStatement(ts, cond.pos).value)),
                                       ParseStatement(ts, cond.pos).pos)
  {
    StatementDispatch(ts, pos);
  }

  /** The "Expected closing brace" error is never produced: the scope loop peeks
      at the cursor (a panic at the end) before it tests for the end. */
  lemma ClosingBraceUnreachable(ts: seq<Token>, pos: nat)
    requires pos <= |ts|
    ensures !(ParseStatement(ts, pos).Err? && ParseStatement(ts, pos).message == ExpectedClosingBrace)
    ensures var r := ParseProgram(ts);
            r.Errors? ==> forall i :: 0 <= i < |r.errors| ==> r.errors[i].message != ExpectedClosingBrace
  {
    assert ExpectedClosingBrace !in DeclErrors;
  }

  /** `identifier = atom ;` is one assignment statement. */
  lemma AtomAssignment(ts: seq<Token>, pos: nat)
    requires pos + 3 < |ts| && ts[pos].kind == Ident && ts[pos + 1].kind == Equal
    requires IsAtom(ts[pos + 2]) && ts[pos + 3].kind == Semicolon
    ensures ParseStatement(ts, pos) == Ok(AssignStmt(Assignment(ts[pos], AtomExpr(ts[pos + 2]))), pos + 4)
  {
    var s := AssignStmt(Assignment(ts[pos], AtomExpr(ts[pos + 2])));
    StatementDispatch(ts, pos);
    AssignmentOfAtom(ts, pos);
    assert ParseDeclaration(ts, pos) == ExpectSemicolon(ts, s, pos + 3);
  }

  lemma AssignmentOfAtom(ts: seq<Token>, pos: nat)
    requires pos + 3 < |ts| && ts[pos].kind == Ident && ts[pos + 1].kind == Equal
    requires IsAtom(ts[pos + 2]) && ts[pos + 3].kind == Semicolon
    ensures ParseAssignment(ts, pos) == Ok(AssignStmt(Assignment(ts[pos], AtomExpr(ts[pos + 2]))), pos + 3)
  {
    AtomOperand(ts, pos + 2, EqualityLevel);
  }

  /** Parsing statement after statement from `pos` yields `stmts` and stops
      at `end`, and none of them starts at a `}`. */
  ghost predicate ParsesInOrder(ts: seq<Token>, pos: nat, stmts: seq<Statement>, end: nat)
    decreases |stmts|
  {
    pos <= |ts| &&
    if stmts == [] then pos == end
    else
      pos < |ts| && ts[pos].kind != RightBrace &&
      var s := ParseStatement(ts, pos);
      s.Ok? && s.value == stmts[0] && ParsesInOrder(ts, s.pos, stmts[1..], end)
  }

  lemma {:induction false} ScopeBodyCollects(ts: seq<Token>, parsed: seq<Statement>, pos: nat,
                                              stmts: seq<Statement>, end: nat)
    requires ParsesInOrder(ts, pos, stmts, end)
    requires end < |ts| && ts[end].kind == RightBrace
    requires forall i :: 0 <= i < |parsed| ==> NoDeclarations(parsed[i])
    ensures ScopeBody(ts, parsed, pos) == Ok(ScopeStmt(parsed + stmts), end + 1)
    decreases |stmts|
  {
    if stmts == [] {
      assert parsed + stmts == parsed;
    } else {
      var s := ParseStatement(ts, pos);
      var parsed' := parsed + [s.value];
      assert forall i :: 0 <= i < |parsed'| ==> NoDeclarations(parsed'[i]);
      ScopeBodyCollects(ts, parsed', s.pos, stmts[1..], end);
      assert parsed' + stmts[1..] == parsed + stmts;
    }
  }

  /** A scope holds the statements between its braces, in source order. */
  lemma ScopeKeepsSourceOrder(ts: seq<Token>, pos: nat, stmts: seq<Statement>, end: nat)
    requires pos < |ts| && ts[pos].kind == LeftBrace
    requires ParsesInOrder(ts, pos + 1, stmts, end)
    requires end < |ts| && ts[end].kind == RightBrace
    ensures ParseStatement(ts, pos) == Ok(ScopeStmt(stmts), end + 1)
  {
    StatementDispatch(ts, pos);
    ScopeBodyCollects(ts, [], pos + 1, stmts, end);
    assert [] + stmts == stmts;
  }

  /** `{ }` is the empty scope. */
  lemma EmptyScope(ts: seq<Token>, pos: nat)
    requires pos + 1 < |ts| && ts[pos].kind == LeftBrace && ts[pos + 1].kind == RightBrace
    ensures ParseStatement(ts, pos) == Ok(ScopeStmt([]), pos + 2)
  {
    ScopeKeepsSourceOrder(ts, pos, [], pos + 1);
  }

  // ---------------------------------------------------------------- declarations

  /** `()` is rejected: at least one parameter is needed. */
  lemma NoParametersRejected(ts: seq<Token>, pos: nat)
    requires pos + 1 < |ts| && ts[pos].kind == LeftParen && ts[pos + 1].kind == RightParen
    ensures FuncArgs(ts, pos) == Err(ExpectedIdentifier, pos + 1)
  {
  }

  /** A second parameter is rejected: the comma is seen but never consumed, and
      the identifier test then looks at the comma. */
  lemma SecondParameterRejected(ts: seq<Token>, pos: nat)
    requires pos + 2 < |ts| && ts[pos].kind == LeftParen && ts[pos + 1].kind == Ident && ts[pos + 2].kind == Comma
    ensures FuncArgs(ts, pos) == Err(ExpectedIdentifier, pos + 2)
  {
  }

  // ---------------------------------------------------------------- program

  /** A declaration that parses is entered in the table under its name and the
      loop carries on after it. */
  lemma DeclarationStep(ts: seq<Token>, pos: nat, functions: map<string, FunctionDecl>, fails: seq<ParseError>)
    requires pos < |ts| && |fails| <= 5
    requires forall k :: k in functions ==> functions[k].name == k
    requires FunctionDeclaration(ts, pos).Ok?
    ensures var d := FunctionDeclaration(ts, pos);
            ProgramLoop(ts, pos, functions, fails) == ProgramLoop(ts, d.pos, Enter(functions, d.value), fails)
  {
  }

  /** A declaration that fails is recorded, against the token before the
      cursor it stopped at, after the failures already recorded; once a failure
      is recorded the result can no longer be a program. Unless that makes six
      failures, the loop goes on from the cursor the declaration stopped at. */
  lemma FailedDeclaration(ts: seq<Token>, pos: nat, functions: map<string, FunctionDecl>,
                          fails: seq<ParseError>, m: string, next: nat)
    requires pos < |ts| && |fails| <= 5
    requires forall k :: k in functions ==> functions[k].name == k
    requires FunctionDeclaration(ts, pos) == Err(m, next)
    ensures var r := ProgramLoop(ts, pos, functions, fails);
            && !r.Program?
            && (r.Errors? ==> fails + [ParseError(Previous(ts, next).value, m)] <= r.errors)
    ensures var fails' := fails + [ParseError(Previous(ts, next).value, m)];
            ProgramLoop(ts, pos, functions, fails)
            == if |fails'| > 5 then Errors(fails') else ProgramLoop(ts, next, functions, fails')
  {
    var fails' := fails + [ParseError(Previous(ts, next).value, m)];
    if |fails'| <= 5 {
      var r := ProgramLoop(ts, next, functions, fails');
      assert r.Program? ==> fails' == [];
    }
  }

  /** A declaration that parses up to the end closes the loop with the table
      it completes. */
  lemma LastDeclaration(ts: seq<Token>, pos: nat, functions: map<string, FunctionDecl>)
    requires pos < |ts|
    requires forall k :: k in functions ==> functions[k].name == k
    requires FunctionDeclaration(ts, pos).Ok? && FunctionDeclaration(ts, pos).pos == |ts|
    ensures var f := FunctionDeclaration(ts, pos).value;
            ProgramLoop(ts, pos, functions, []) == Program(functions[f.name := f])
  {
    DeclarationStep(ts, pos, functions, []);
  }

  /** A list holding one complete declaration gives a table of exactly that function. */
  lemma SingleFunction(ts: seq<Token>)
    requires FunctionDeclaration(ts, 0).Ok? && FunctionDeclaration(ts, 0).pos == |ts|
    ensures ParseProgram(ts) == Program(map[FunctionDeclaration(ts, 0).value.name := FunctionDeclaration(ts, 0).value])
  {
    LastDeclaration(ts, 0, map[]);
  }

  /** Of two declarations with the same name, the later one is kept. */
  lemma LaterDeclarationWins(ts: seq<Token>, mid: nat)
    requires FunctionDeclaration(ts, 0).Ok? && FunctionDeclaration(ts, 0).pos == mid <= |ts|
    requires FunctionDeclaration(ts, mid).Ok? && FunctionDeclaration(ts, mid).pos == |ts|
    requires FunctionDeclaration(ts, 0).value.name == FunctionDeclaration(ts, mid).value.name
    ensures ParseProgram(ts) == Program(map[FunctionDeclaration(ts, mid).value.name := FunctionDeclaration(ts, mid).value])
  {
    var f := FunctionDeclaration(ts, 0).value;
    var g := FunctionDeclaration(ts, mid).value;
    DeclarationStep(ts, 0, map[], []);
    Overwrite(f.name, f, g);
    LastDeclaration(ts, mid, map[f.name := f]);
  }

  lemma Overwrite(name: string, f: FunctionDecl, g: FunctionDecl)
    ensures map[][name := f] == map[name := f]
    ensures map[name := f][name := g] == map[name := g]
  {
  }

  /** The error recorded when the next token is not `fun`, which is not consumed. */
  function NotAFunction(ts: seq<Token>): ParseError
    requires |ts| > 0
  {
    ParseError(ts[0], ExpectedFunction)
  }

  lemma {:induction false} StuckLoop(ts: seq<Token>, fails: seq<ParseError>)
    requires |ts| > 0 && ts[0].kind != Fun && |fails| <= 5
    ensures ProgramLoop(ts, 0, map[], fails)
            == Errors(fails + seq(6 - |fails|, _ => NotAFunction(ts)))
    decreases 6 - |fails|
  {
    var fails' := fails + [NotAFunction(ts)];
    if |fails'| <= 5 {
      StuckLoop(ts, fails');
      assert fails' + seq(6 - |fails'|, _ => NotAFunction(ts)) == fails + seq(6 - |fails|, _ => NotAFunction(ts));
    } else {
      assert seq(6 - |fails|, _ => NotAFunction(ts)) == [NotAFunction(ts)];
    }
  }

  /** A list that does not start with `fun` never moves the cursor and gives six
      identical errors, all tagged with the first token; the cap test runs after
      the sixth is recorded. */
  lemma NonFunctionStartGivesSixErrors(ts: seq<Token>)
    requires |ts| > 0 && ts[0].kind != Fun
    ensures ParseProgram(ts).Errors?
    ensures |ParseProgram(ts).errors| == 6
    ensures forall i :: 0 <= i < 6 ==> ParseProgram(ts).errors[i] == ParseError(ts[0], ExpectedFunction)
  {
    StuckLoop(ts, []);
  }

  /** The empty list is the empty program. */
  lemma EmptyProgram()
    ensures ParseProgram([]) == Program(map[])
  {
  }
}

=== FILE: scanner.dfy ===
/** The hand-written scanner of src/scanner.rs: one pass over the characters,
    one- and two-character lookahead, first offence aborts the whole scan. */
module Scanner {
  import opened Wrappers
  import opened Tokens
  import opened Numerals

  /** The outcome of one `scan_token` call: a token and the scanner state after
      it, the scanner's error string, or a Rust panic (a slice out of order). */
  datatype Step = Step(token: Token, current: nat, line: nat) | Fail(message: string) | Panic

  /** The outcome of `tokens`: the token list, the error string, or a panic. */
  datatype Scanned = Scanned(tokens: seq<Token>) | LexError(message: string) | Panic

  const UnterminatedString := "Unterminated string sequence"

  /** Number of line breaks in `s`; the scanner's line counter starts at 1. */
  function Newlines(s: string): nat
  {
    if |s| == 0 then 0 else (if s[0] == '\n' then 1 else 0) + Newlines(s[1..])
  }

  /** The line breaks of a concatenation are those of its parts. */
  lemma {:induction false} NewlinesConcat(a: string, b: string)
    ensures Newlines(a + b) == Newlines(a) + Newlines(b)
  {
    if |a| == 0 {
      assert a + b == b;
    } else {
      assert (a + b)[1..] == a[1..] + b;
      NewlinesConcat(a[1..], b);
    }
  }

  /** A text without a line break counts none. */
  lemma {:induction false} NoNewlines(s: string)
    requires forall k :: 0 <= k < |s| ==> NotNewline(s[k])
    ensures Newlines(s) == 0
  {
    if |s| > 0 {
      NoNewlines(s[1..]);
    }
  }
  /** A span of the source without line breaks counts none. */
  lemma QuietSpan(src: string, i: nat, j: nat)
    requires i <= j <= |src|
    ensures (forall k :: i <= k < j ==> src[k] != '\n') ==> Newlines(src[i..j]) == 0
  {
    var quiet := forall k :: i <= k < j ==> src[k] != '\n';
    if quiet {
      NoNewlines(src[i..j]);
    }
  }


  predicate IsAlpha(c: char) {
    'a' <= c <= 'z' || 'A' <= c <= 'Z'
  }

  /** ASCII letters and digits; on ASCII input this agrees with `char::is_alphanumeric`. */
  predicate IsAlphanumeric(c: char) {
    IsAlpha(c) || IsDigit(c)
  }

  predicate NotNewline(c: char) {
    c != '\n'
  }

  /** `peek`: the character at the cursor, or NUL past the end. */
  function Peek(src: string, current: nat): (c: char)
    ensures current < |src| ==> c == src[current]
    ensures current >= |src| ==> c == '\0'
  {
    if current >= |src| then '\0' else src[current]
  }

  /** `peek_next`: the character after the cursor, or NUL when that is the end.
      Only called once `peek` has seen a dot, so the cursor is inside the source. */
  function PeekNext(src: string, current: nat): (c: char)
    requires current < |src|
    ensures current + 1 < |src| ==> c == src[current + 1]
    ensures current + 1 == |src| ==> c == '\0'
  {
    if current + 1 == |src| then '\0' else src[current + 1]
  }

  /** `match_next`: consume `expected` if it is the next character. */
  function MatchNext(src: string, current: nat, expected: char): (r: (bool, nat))
    requires current <= |src|
    ensures r.0 <==> current < |src| && src[current] == expected
    ensures r.1 == if r.0 then current + 1 else current
  {
    if current >= |src| then (false, current)
    else if src[current] == expected then (true, current + 1)
    else (false, current)
  }

  /** `advance`: consume the character at the cursor. */
  function Advance(src: string, current: nat): (r: (char, nat))
    requires current < |src|
    ensures r.0 == src[current] && r.1 == current + 1
  {
    (src[current], current + 1)
  }

  /** The loops `while p(peek()) && !is_at_end() { advance() }`: the end of the
      longest run of characters satisfying `p` that starts at `i`. */
  function RunEnd(src: string, i: nat, p: char -> bool): (r: nat)
    requires i <= |src|
    ensures i <= r <= |src|
    ensures forall k :: i <= k < r ==> p(src[k])
    ensures r == |src| || !p(src[r])
    decreases |src| - i
  {
    if i < |src| && p(src[i]) then RunEnd(src, i + 1, p) else i
  }

  /** `error`: the message prefixed with the current line. */
  function Error(line: nat, message: string): (r: string)
    ensures |r| > 8 && r[..8] == "[line : "
    ensures var k := 8 + DigitPrefix(r[8..]);
            && k < |r|
            && NumeralValue(r[8..k]) == Some(line as real)
            && r[k..] == "] Error : " + message
  {
    var head: string := "[line : ";
    var tail: string := "] Error : " + message;
    var r := head + (NatToString(line) + tail);
    assert |head| == 8 && r[..8] == head && r[8..] == NatToString(line) + tail;
    RenderedThenText(line, tail);
    assert r[8..8 + |NatToString(line)|] == NatToString(line);
    r
  }

  /** A rendered number followed by a non-digit reads back as that number. */
  lemma RenderedThenText(n: nat, tail: string)
    requires |tail| > 0 && tail[0] == ']'
    ensures var s := NatToString(n) + tail;
            var k := DigitPrefix(s);
            && k == |NatToString(n)|
            && s[..k] == NatToString(n)
            && s[k..] == tail
            && NumeralValue(s[..k]) == Some(n as real)
  {
    var d := NatToString(n);
    var s := d + tail;
    assert s[..|d|] == d && s[|d|..] == tail;
    DigitPrefixIs(s, |d|);
    NatToStringIsNumeral(n);
  }

  /** The loop of `string`: from `i`, move to the next double quote or the end of
      input, counting the line breaks passed on the way. */
  function StringBody(src: string, i: nat, line: nat): (r: (nat, nat))
    requires i <= |src|
    ensures i <= r.0 <= |src|
    ensures forall k :: i <= k < r.0 ==> src[k] != '"'
    ensures r.0 == |src| || src[r.0] == '"'
    ensures r.1 == line + Newlines(src[i..r.0])
    decreases |src| - i
  {
    if i < |src| && src[i] != '"' then
      var r := StringBody(src, i + 1, if src[i] == '\n' then line + 1 else line);
      NewlinesCons(src, i, r.0);
      r
    else (i, line)
  }

  /** A span's line breaks are those of its first character and of the rest. */
  lemma NewlinesCons(src: string, i: nat, j: nat)
    requires i < j <= |src|
    ensures Newlines(src[i..j]) == (if src[i] == '\n' then 1 else 0) + Newlines(src[i + 1..j])
  {
    assert src[i..j][1..] == src[i + 1..j];
  }

  /** `string`, entered with the opening quote at `start` already consumed. */
  function ScanString(src: string, start: nat, line: nat): (r: Step)
    requires start < |src|
    ensures r.Step? ==> start + 1 < r.current <= |src|
    ensures r.Step? ==> r.line == line + Newlines(src[start + 1..r.current])
    ensures r.Step? ==> r.token.line == r.line
  {
    var (close, endLine) := StringBody(src, start + 1, line);
    if close >= |src| then
      Fail(Error(endLine, UnterminatedString))
    else if start + 1 > close - 1 then
      // `source[start + 1..current - 1]` with the bounds out of order: the
      // empty literal `""` makes Rust panic here.
      Step.Panic
    else
      var lexeme := src[start + 1..close - 1];
      var (_, next) := Advance(src, close);
      assert src[start + 1..next] == src[start + 1..close] + [src[close]];
      NewlinesConcat(src[start + 1..close], [src[close]]);
      Step(Token(endLine, StringLit, lexeme), next, endLine)
  }

  /** `number`, entered with the first digit at `start` already consumed. */
  function ScanNumber(src: string, start: nat, line: nat): (r: Step)
    requires start < |src|
    ensures r.Step? && start < r.current <= |src| && r.line == line && r.token.line == line
    ensures r.token.kind == NumberLit && r.token.lexeme == src[start..r.current]
    ensures src[start] != '\n' ==> Newlines(src[start..r.current]) == 0
  {
    var wholeEnd := RunEnd(src, start + 1, IsDigit);
    var end :=
      if Peek(src, wholeEnd) == '.' && IsDigit(PeekNext(src, wholeEnd)) then
        RunEnd(src, wholeEnd + 1, IsDigit)
      else wholeEnd;
    QuietSpan(src, start, end);
    Step(Token(line, NumberLit, src[start..end]), end, line)
  }

  /** `identifier`, entered with the first letter at `start` already consumed.
      The token carries an empty lexeme, keyword or not. */
  function ScanIdentifier(src: string, keywords: map<string, TokenType>, start: nat, line: nat): (r: Step)
    requires start < |src|
    ensures r.Step? && start < r.current <= |src| && r.line == line && r.token.line == line
    ensures forall k :: start < k < r.current ==> IsAlphanumeric(src[k])
    ensures r.current == |src| || !IsAlphanumeric(src[r.current])
    ensures r.token.lexeme == ""
    ensures var word := src[start..r.current]; r.token.kind == (if word in keywords then keywords[word] else Ident)
    ensures src[start] != '\n' ==> Newlines(src[start..r.current]) == 0
  {
    var end := RunEnd(src, start + 1, IsAlphanumeric);
    QuietSpan(src, start, end);
    var word := src[start..end];
    Step(Token(line, if word in keywords then keywords[word] else Ident, ""), end, line)
  }

  /** An operator that becomes its two-character form when followed by `=`. */
  function ScanOperator(src: string, start: nat, line: nat, double: TokenType, single: TokenType): (r: Step)
    requires start < |src| && NotNewline(src[start])
    ensures r.Step? && r.current <= |src| && r.line == line && r.token.line == line
    ensures r.token.lexeme == ""
    ensures start + 1 < |src| && src[start + 1] == '=' ==> r.token.kind == double && r.current == start + 2
    ensures !(start + 1 < |src| && src[start + 1] == '=') ==> r.token.kind == single && r.current == start + 1
    ensures Newlines(src[start..r.current]) == 0
  {
    var (matched, after) := MatchNext(src, start + 1, '=');
    QuietSpan(src, start, after);
    Step(Token(line, if matched then double else single, ""), after, line)
  }

  /** `scan_token`: consume one lexical unit starting at `start`. */
  function ScanToken(src: string, keywords: map<string, TokenType>, start: nat, line: nat): (r: Step)
    requires start < |src|
    ensures r.Step? ==> start < r.current <= |src|
    ensures r.Step? ==> r.line == line + Newlines(src[start..r.current])
    ensures r.Step? ==> r.token.line == r.line
    ensures r.Step? && r.token.kind == NumberLit ==> IsDigit(src[start]) || IsAlpha(src[start])
    ensures src[start] == '"' ==> r == ScanString(src, start, line)
    ensures IsDigit(src[start]) ==> r == ScanNumber(src, start, line)
    ensures IsAlpha(src[start]) ==> r == ScanIdentifier(src, keywords, start, line)
  {
    var (c, next) := Advance(src, start);
    NewlinesCons(src, start, next);
    var r: Step := match c
      case '(' => Step(Token(line, LeftParen, ""), next, line)
      case ')' => Step(Token(line, RightParen, ""), next, line)
      case '{' => Step(Token(line, LeftBrace, ""), next, line)
      case '}' => Step(Token(line, RightBrace, ""), next, line)
      case ',' => Step(Token(line, Comma, ""), next, line)
      case '.' => Step(Token(line, Dot, ""), next, line)
      case '-' => Step(Token(line, Minus, ""), next, line)
      case '+' => Step(Token(line, Plus, ""), next, line)
      case ';' => Step(Token(line, Semicolon, ""), next, line)
      case '*' => Step(Token(line, Star, ""), next, line)
      case '!' => ScanOperator(src, start, line, BangEqual, Bang)
      case '=' => ScanOperator(src, start, line, EqualEqual, Equal)
      case '<' => ScanOperator(src, start, line, LessEqual, Less)
      case '>' => ScanOperator(src, start, line, GreaterEqual, Greater)
      case '/' =>
        (var (comment, after) := MatchNext(src, next, '/');
         if comment then
           // A comment runs up to, not including, the next line break.
           var end := RunEnd(src, after, NotNewline);
           QuietSpan(src, start, end);
           Step(Token(line, Ignore, ""), end, line)
         else Step(Token(line, Slash, ""), next, line))
      case '\n' => Step(Token(line + 1, Ignore, ""), next, line + 1)
      case ' ' => Step(Token(line, Ignore, ""), next, line)
      case '\r' => Step(Token(line, Ignore, ""), next, line)
      case '\t' => Step(Token(line, Ignore, ""), next, line)
      case '"' =>
        (var quoted := ScanString(src, start, line);
         if quoted.Step? then
           NewlinesCons(src, start, quoted.current);
           quoted
         else quoted)
      case _ =>
        if IsDigit(c) then ScanNumber(src, start, line)
        else if IsAlpha(c) then ScanIdentifier(src, keywords, start, line)
        else Fail("unexpected token : " + [c]);
    r
  }

  /** The token properties the scan loop maintains. */
  predicate NoIgnored(ts: seq<Token>) {
    forall i :: 0 <= i < |ts| ==> ts[i].kind != Ignore
  }

  predicate LinesWithin(ts: seq<Token>, lo: nat, hi: nat) {
    forall i :: 0 <= i < |ts| ==> lo <= ts[i].line <= hi
  }

  predicate LinesSorted(ts: seq<Token>) {
    forall i, j :: 0 <= i < j < |ts| ==> ts[i].line <= ts[j].line
  }

  predicate NumbersAreNumerals(ts: seq<Token>) {
    forall i :: 0 <= i < |ts| && ts[i].kind == NumberLit ==> IsNumeral(ts[i].lexeme)
  }

  /** The loop of `tokens`: scan from `current` to the end, dropping IGNORE tokens. */
  function ScanFrom(src: string, keywords: map<string, TokenType>, current: nat, line: nat): (r: Scanned)
    requires current <= |src|
    ensures r.Scanned? ==> NoIgnored(r.tokens)
    ensures r.Scanned? ==> LinesWithin(r.tokens, line, line + Newlines(src[current..]))
    ensures r.Scanned? ==> LinesSorted(r.tokens)
    ensures r.Scanned? && ReservedWordsOnly(keywords) ==> NumbersAreNumerals(r.tokens)
    decreases |src| - current
  {
    if current >= |src| then Scanned([])
    else
      match ScanToken(src, keywords, current, line)
      case Fail(message) => LexError(message)
      case Panic => Scanned.Panic
      case Step(token, next, nextLine) =>
        var rest := ScanFrom(src, keywords, next, nextLine);
        if !rest.Scanned? then rest
        else
          NewlinesSplit(src, current, next);
          if token.IsIgnored() then rest
          else
            KeepToken(src, keywords, current, line, rest.tokens);
            Scanned([token] + rest.tokens)
  }

  /** Putting the token of a step in front of what the rest of the loop kept
      keeps every property the loop promises. */
  lemma KeepToken(src: string, keywords: map<string, TokenType>, current: nat, line: nat, rest: seq<Token>)
    requires current < |src| && ScanToken(src, keywords, current, line).Step?
    requires var s := ScanToken(src, keywords, current, line);
             && !s.token.IsIgnored()
             && NoIgnored(rest)
             && LinesWithin(rest, s.line, s.line + Newlines(src[s.current..]))
             && LinesSorted(rest)
             && (ReservedWordsOnly(keywords) ==> NumbersAreNumerals(rest))
    ensures var s := ScanToken(src, keywords, current, line);
            && NoIgnored([s.token] + rest)
            && LinesWithin([s.token] + rest, line, line + Newlines(src[current..]))
            && LinesSorted([s.token] + rest)
            && (ReservedWordsOnly(keywords) ==> NumbersAreNumerals([s.token] + rest))
  {
    var s := ScanToken(src, keywords, current, line);
    NewlinesSplit(src, current, s.current);
    NumberStepIsNumeral(src, keywords, current, line);
    Prepend(s.token, rest, line, s.line, line + Newlines(src[current..]));
  }

  lemma NewlinesSplit(src: string, i: nat, j: nat)
    requires i <= j <= |src|
    ensures Newlines(src[i..]) == Newlines(src[i..j]) + Newlines(src[j..])
  {
    assert src[i..] == src[i..j] + src[j..];
    NewlinesConcat(src[i..j], src[j..]);
  }

  lemma Prepend(t: Token, ts: seq<Token>, lo: nat, mid: nat, hi: nat)
    requires lo <= t.line <= mid && LinesWithin(ts, mid, hi) && LinesSorted(ts) && t.line <= hi
    ensures LinesWithin([t] + ts, lo, hi) && LinesSorted([t] + ts)
  {
  }

  /** A NUMBER step extracts a numeral. */
  lemma NumberStepIsNumeral(src: string, keywords: map<string, TokenType>, start: nat, line: nat)
    requires start < |src|
    ensures var r := ScanToken(src, keywords, start, line);
            r.Step? && r.token.kind == NumberLit && ReservedWordsOnly(keywords) ==> IsNumeral(r.token.lexeme)
  {
    if IsDigit(src[start]) {
      NumberLexemeShape(src, start, line);
    } else if IsAlpha(src[start]) && ReservedWordsOnly(keywords) {
      var r := ScanIdentifier(src, keywords, start, line);
      var word := src[start..r.current];
      if word in keywords {
        assert keywords[word] != NumberLit;
      }
    }
  }

  /** A keyword table whose entries are all reserved-word types, as the
      language's keyword table is. */
  predicate ReservedWordsOnly(keywords: map<string, TokenType>) {
    forall w :: w in keywords ==> keywords[w] in {Fun, If, Break, True, False, Nil} || keywords[w].OtherKeyword?
  }

  /** `number` extracts the longest numeral at `start`: a digit run, and a dot
      with a second digit run only when a digit follows the dot. */
  lemma NumberLexemeShape(src: string, start: nat, line: nat)
    requires start < |src| && IsDigit(src[start])
    ensures var r := ScanNumber(src, start, line);
            && r.token.lexeme == src[start..r.current]
            && IsNumeral(r.token.lexeme)
            && (r.current == |src| || !IsDigit(src[r.current]))
            && (DigitPrefix(r.token.lexeme) == |r.token.lexeme| && r.current + 1 < |src| && src[r.current] == '.'
                ==> !IsDigit(src[r.current + 1]))
  {
    var r := ScanNumber(src, start, line);
    var wholeEnd := RunEnd(src, start + 1, IsDigit);
    var lexeme := src[start..r.current];
    assert lexeme[..wholeEnd - start] == src[start..wholeEnd];
    DigitPrefixIs(lexeme, wholeEnd - start);
    if r.current != wholeEnd {
      assert lexeme[wholeEnd - start + 1..] == src[wholeEnd + 1..r.current];
    }
  }

  /** `tokens`: the whole source scanned from line 1. No EOF token is appended. */
  function Scan(src: string, keywords: map<string, TokenType>): (r: Scanned)
    ensures r.Scanned? ==> forall i :: 0 <= i < |r.tokens| ==> r.tokens[i].kind != Ignore
    ensures r.Scanned? ==> forall i :: 0 <= i < |r.tokens| ==> 1 <= r.tokens[i].line <= 1 + Newlines(src)
    ensures r.Scanned? ==> forall i, j :: 0 <= i < j < |r.tokens| ==> r.tokens[i].line <= r.tokens[j].line
    ensures r.Scanned? && ReservedWordsOnly(keywords) ==>
              forall i :: 0 <= i < |r.tokens| && r.tokens[i].kind == NumberLit ==> IsNumeral(r.tokens[i].lexeme)
  {
    assert src[0..] == src;
    ScanFrom(src, keywords, 0, 1)
  }
}

=== FILE: scanner_properties.dfy ===
/** What one step of the scanner does with each kind of character, and what
    the whole scan guarantees about the token list. */
module ScannerProperties {
  import opened Wrappers
  import opened Tokens
  import opened Numerals
  import opened Scanner

  // ---------------------------------------------------------------- one step

  /** Single-character punctuation becomes one token with an empty lexeme. */
  lemma PunctuationToken(src: string, keywords: map<string, TokenType>, start: nat, line: nat)
    requires start < |src| && src[start] in "(){},.-+;*"
    ensures var r := ScanToken(src, keywords, start, line);
            && r.Step? && r.current == start + 1 && r.line == line
            && r.token.line == line && r.token.lexeme == ""
            && (src[start] == '(' ==> r.token.kind == LeftParen)
            && (src[start] == ')' ==> r.token.kind == RightParen)
            && (src[start] == '{' ==> r.token.kind == LeftBrace)
            && (src[start] == '}' ==> r.token.kind == RightBrace)
            && (src[start] == ',' ==> r.token.kind == Comma)
            && (src[start] == '.' ==> r.token.kind == Dot)
            && (src[start] == '-' ==> r.token.kind == Minus)
            && (src[start] == '+' ==> r.token.kind == Plus)
            && (src[start] == ';' ==> r.token.kind == Semicolon)
            && (src[start] == '*' ==> r.token.kind == Star)
  {
  }

  /** `!`, `=`, `<` and `>` take a following `=` into one two-character token;
      otherwise the one-character token is produced and the next character is
      left for the next step. */
  lemma TwoCharOperators(src: string, keywords: map<string, TokenType>, start: nat, line: nat)
    requires start < |src| && src[start] in "!=<>"
    ensures var r := ScanToken(src, keywords, start, line);
            var double := start + 1 < |src| && src[start + 1] == '=';
            && r.Step? && r.line == line && r.token.line == line && r.token.lexeme == ""
            && r.current == (if double then start + 2 else start + 1)
            && (src[start] == '!' ==> r.token.kind == if double then BangEqual else Bang)
            && (src[start] == '=' ==> r.token.kind == if double then EqualEqual else Equal)
            && (src[start] == '<' ==> r.token.kind == if double then LessEqual else Less)
            && (src[start] == '>' ==> r.token.kind == if double then GreaterEqual else Greater)
  {
  }

  /** `//` skips to the next line break, which it leaves in place, or to the
      end of input, and yields an IGNORE token. */
  lemma CommentSkip(src: string, keywords: map<string, TokenType>, start: nat, line: nat)
    requires start + 1 < |src| && src[start] == '/' && src[start + 1] == '/'
    ensures var r := ScanToken(src, keywords, start, line);
            && r.Step? && r.token.kind == Ignore && r.line == line
            && start + 2 <= r.current <= |src|
            && (forall k :: start + 2 <= k < r.current ==> src[k] != '\n')
            && (r.current == |src| || src[r.current] == '\n')
  {
  }

  /** A `/` not followed by another `/` is the division operator. */
  lemma LoneSlash(src: string, keywords: map<string, TokenType>, start: nat, line: nat)
    requires start < |src| && src[start] == '/'
    requires start + 1 == |src| || src[start + 1] != '/'
    ensures ScanToken(src, keywords, start, line) == Step(Token(line, Slash, ""), start + 1, line)
  {
  }

  /** Blanks are IGNORE tokens; a line break also moves the line counter, and
      the IGNORE token carries the new line. */
  lemma Whitespace(src: string, keywords: map<string, TokenType>, start: nat, line: nat)
    requires start < |src| && src[start] in " \r\t\n"
    ensures var next := if src[start] == '\n' then line + 1 else line;
            ScanToken(src, keywords, start, line) == Step(Token(next, Ignore, ""), start + 1, next)
  {
  }

  /** A string whose closing quote is at `close` yields the characters strictly
      between the quotes minus the last one, on the line where it ends; the
      empty string `""` is a panic. */
  lemma StringLexeme(src: string, keywords: map<string, TokenType>, start: nat, close: nat, line: nat)
    requires start < close < |src| && src[start] == '"' && src[close] == '"'
    requires forall k :: start < k < close ==> src[k] != '"'
    ensures var r := ScanToken(src, keywords, start, line);
            var endLine := line + Newlines(src[start + 1..close]);
            && (close == start + 1 ==> r.Panic?)
            && (close > start + 1 ==>
                  r == Step(Token(endLine, StringLit, src[start + 1..close - 1]), close + 1, endLine))
  {
  }

  /** A double quote hands over to the string rule. */
  lemma QuoteStartsString(src: string, keywords: map<string, TokenType>, start: nat, line: nat)
    requires start < |src| && src[start] == '"'
    ensures ScanToken(src, keywords, start, line) == ScanString(src, start, line)
  {
  }

  /** A string without a closing quote fails with the line where input ends. */
  lemma UnterminatedStringFails(src: string, keywords: map<string, TokenType>, start: nat, line: nat)
    requires start < |src| && src[start] == '"'
    requires forall k :: start < k < |src| ==> src[k] != '"'
    ensures ScanToken(src, keywords, start, line)
            == Fail(Error(line + Newlines(src[start + 1..]), "Unterminated string sequence"))
  {
    QuoteStartsString(src, keywords, start, line);
    var (close, endLine) := StringBody(src, start + 1, line);
    assert close == |src|;
    assert src[start + 1..close] == src[start + 1..];
    assert ScanString(src, start, line) == Fail(Error(endLine, UnterminatedString));
  }

  /** A digit hands over to the number rule. */
  lemma DigitStartsNumber(src: string, keywords: map<string, TokenType>, start: nat, line: nat)
    requires start < |src| && IsDigit(src[start])
    ensures ScanToken(src, keywords, start, line) == ScanNumber(src, start, line)
  {
  }

  /** A number is the longest numeral at the cursor, copied verbatim. */
  lemma NumberToken(src: string, keywords: map<string, TokenType>, start: nat, line: nat)
    requires start < |src| && IsDigit(src[start])
    ensures var r := ScanToken(src, keywords, start, line);
            && r.Step? && r.token.kind == NumberLit && r.line == line && r.token.line == line
            && r.token.lexeme == src[start..r.current]
            && IsNumeral(r.token.lexeme)
            && (r.current == |src| || !IsDigit(src[r.current]))
            && (DigitPrefix(r.token.lexeme) == |r.token.lexeme| && r.current + 1 < |src| && src[r.current] == '.'
                ==> !IsDigit(src[r.current + 1]))
  {
    DigitStartsNumber(src, keywords, start, line);
    NumberLexemeShape(src, start, line);
  }

  /** A word is the longest alphanumeric run starting at a letter; the table
      decides its type, and the token's lexeme is empty either way. */
  lemma IdentifierToken(src: string, keywords: map<string, TokenType>, start: nat, end: nat, line: nat)
    requires start < end <= |src| && IsAlpha(src[start])
    requires forall k :: start < k < end ==> IsAlphanumeric(src[k])
    requires end == |src| || !IsAlphanumeric(src[end])
    ensures var word := src[start..end];
            ScanToken(src, keywords, start, line)
            == Step(Token(line, if word in keywords then keywords[word] else Ident, ""), end, line)
  {
    assert !IsDigit(src[start]);
  }

  /** Every other character is rejected, without a line prefix. */
  lemma UnexpectedCharacter(src: string, keywords: map<string, TokenType>, start: nat, line: nat)
    requires start < |src|
    requires src[start] !in "(){},.-+;*!=<>/ \r\t\n\""
    requires !IsDigit(src[start]) && !IsAlpha(src[start])
    ensures ScanToken(src, keywords, start, line) == Fail("unexpected token : " + [src[start]])
  {
  }

  /** One step keeps the scanner's line counter equal to one plus the line
      breaks before the cursor, those inside strings included. */
  lemma LineTracking(src: string, keywords: map<string, TokenType>, start: nat, line: nat)
    requires start < |src| && line == 1 + Newlines(src[..start])
    ensures var r := ScanToken(src, keywords, start, line);
            r.Step? ==> r.line == 1 + Newlines(src[..r.current])
  {
    var r := ScanToken(src, keywords, start, line);
    if r.Step? {
      assert src[..r.current] == src[..start] + src[start..r.current];
      NewlinesConcat(src[..start], src[start..r.current]);
    }
  }

  // ---------------------------------------------------------------- whole scan

  /** The cursor right after each step of the scan loop that keeps its token:
      entry `i` is where the scan stood once it had produced `tokens[i]`. */
  ghost function KeptEnds(src: string, keywords: map<string, TokenType>, current: nat, line: nat): seq<nat>
    requires current <= |src|
    decreases |src| - current
  {
    if current >= |src| then []
    else
      match ScanToken(src, keywords, current, line)
      case Step(token, next, nextLine) =>
        var rest := KeptEnds(src, keywords, next, nextLine);
        if token.IsIgnored() then rest else [next] + rest
      case _ => []
  }

  /** Token ends lie strictly after `lo`, within the source, in increasing order. */
  ghost predicate EndsWithin(ends: seq<nat>, lo: nat, hi: nat) {
    && (forall i :: 0 <= i < |ends| ==> lo < ends[i] <= hi)
    && (forall i :: 0 < i < |ends| ==> ends[i - 1] < ends[i])
  }

  /** Each token's line is one plus the line breaks before its own end. */
  ghost predicate LinesMatchEnds(src: string, ts: seq<Token>, ends: seq<nat>)
    requires |ts| == |ends|
    requires forall i :: 0 <= i < |ends| ==> ends[i] <= |src|
  {
    forall i :: 0 <= i < |ts| ==> ts[i].line == 1 + Newlines(src[..ends[i]])
  }

  /** The loop keeps the line counter in step with the cursor from line 1: every
      token it keeps carries one plus the line breaks before the point where its
      step ended, and those points advance strictly from token to token. */
  lemma {:induction false} ScanFromTracksLines(src: string, keywords: map<string, TokenType>, current: nat, line: nat)
    requires current <= |src| && line == 1 + Newlines(src[..current])
    ensures var r := ScanFrom(src, keywords, current, line);
            var ends := KeptEnds(src, keywords, current, line);
            r.Scanned? ==> && |ends| == |r.tokens|
                           && EndsWithin(ends, current, |src|)
                           && LinesMatchEnds(src, r.tokens, ends)
    decreases |src| - current
  {
    if current < |src| {
      var s := ScanToken(src, keywords, current, line);
      LineTracking(src, keywords, current, line);
      if s.Step? {
        ScanFromTracksLines(src, keywords, s.current, s.line);
        var rest := ScanFrom(src, keywords, s.current, s.line);
        var restEnds := KeptEnds(src, keywords, s.current, s.line);
        var r := ScanFrom(src, keywords, current, line);
        if r.Scanned? {
          assert rest.Scanned?;
          if !s.token.IsIgnored() {
            KeepStep(src, s.token, rest.tokens, s.current, restEnds, current);
          }
        }
      }
    }
  }

  /** Putting a kept token and its end in front of the rest keeps both facts. */
  lemma KeepStep(src: string, t: Token, ts: seq<Token>, next: nat, ends: seq<nat>, current: nat)
    requires current < next <= |src| && |ends| == |ts|
    requires EndsWithin(ends, next, |src|) && LinesMatchEnds(src, ts, ends)
    requires t.line == 1 + Newlines(src[..next])
    ensures EndsWithin([next] + ends, current, |src|)
    ensures LinesMatchEnds(src, [t] + ts, [next] + ends)
  {
    var e := [next] + ends;
    var u := [t] + ts;
    forall i | 0 <= i < |u|
      ensures u[i].line == 1 + Newlines(src[..e[i]])
    {
      if i > 0 {
        assert u[i] == ts[i - 1] && e[i] == ends[i - 1];
      }
    }
  }

  /** Every token of a scan sits on line one plus the line breaks before the end
      of the step that produced it; those ends increase through the list. */
  lemma ScanTracksLines(src: string, keywords: map<string, TokenType>)
    ensures var r := Scan(src, keywords);
            var ends := KeptEnds(src, keywords, 0, 1);
            r.Scanned? ==> && |ends| == |r.tokens|
                           && EndsWithin(ends, 0, |src|)
                           && LinesMatchEnds(src, r.tokens, ends)
  {
    assert src[..0] == [];
    ScanFromTracksLines(src, keywords, 0, 1);
  }

  /** The scan of the empty source is the empty list: no end-of-file token. */
  lemma EmptySource(keywords: map<string, TokenType>)
    ensures Scan("", keywords) == Scanned([])
  {
  }

  /** `1.` is the number `1` followed by a dot: a dot only joins a number
      when a digit follows it. */
  lemma TrailingDotIsSeparate(keywords: map<string, TokenType>)
    ensures Scan("1.", keywords) == Scanned([Token(1, NumberLit, "1"), Token(1, Dot, "")])
  {
    NumberBeforeDot(keywords);
    PunctuationToken("1.", keywords, 1, 1);
    assert ScanFrom("1.", keywords, 2, 1) == Scanned([]);
    assert ScanFrom("1.", keywords, 1, 1) == Scanned([Token(1, Dot, "")]);
  }

  lemma NumberBeforeDot(keywords: map<string, TokenType>)
    ensures ScanToken("1.", keywords, 0, 1) == Step(Token(1, NumberLit, "1"), 1, 1)
  {
    var src := "1.";
    DigitStartsNumber(src, keywords, 0, 1);
    assert RunEnd(src, 1, IsDigit) == 1;
    assert src[0..1] == "1";
  }

  lemma QuoteSearchInAbc()
    ensures StringBody("\"abc\"", 1, 1) == (4, 1)
  {
    var src := "\"abc\"";
    assert StringBody(src, 4, 1) == (4, 1);
    assert StringBody(src, 3, 1) == StringBody(src, 4, 1);
    assert StringBody(src, 2, 1) == StringBody(src, 3, 1);
  }

  lemma StringRuleOnAbc()
    ensures ScanString("\"abc\"", 0, 1) == Step(Token(1, StringLit, "ab"), 5, 1)
  {
    var src := "\"abc\"";
    QuoteSearchInAbc();
    assert src[1..3] == "ab";
  }

  lemma StringStep(keywords: map<string, TokenType>)
    ensures ScanToken("\"abc\"", keywords, 0, 1) == Step(Token(1, StringLit, "ab"), 5, 1)
  {
    QuoteStartsString("\"abc\"", keywords, 0, 1);
    StringRuleOnAbc();
  }

  /** `"abc"` yields the string `ab`. */
  lemma StringLosesLastCharacter(keywords: map<string, TokenType>)
    ensures Scan("\"abc\"", keywords) == Scanned([Token(1, StringLit, "ab")])
  {
    StringStep(keywords);
    assert ScanFrom("\"abc\"", keywords, 5, 1) == Scanned([]);
  }

  /** `""` makes the scan panic. */
  lemma EmptyStringPanics(keywords: map<string, TokenType>)
    ensures Scan("\"\"", keywords) == Scanned.Panic
  {
    StringLexeme("\"\"", keywords, 0, 1, 1);
  }

  // ---------------------------------------------------------------- failures

  /** The first failing step aborts the whole loop with its own message: the
      tokens read so far are not returned. */
  lemma FailingStepAborts(src: string, keywords: map<string, TokenType>, current: nat, line: nat)
    requires current < |src| && ScanToken(src, keywords, current, line).Fail?
    ensures ScanFrom(src, keywords, current, line) == LexError(ScanToken(src, keywords, current, line).message)
  {
  }

  /** A failure or panic further on is the outcome of the whole loop. */
  lemma LaterFailurePropagates(src: string, keywords: map<string, TokenType>, current: nat, line: nat)
    requires current < |src| && ScanToken(src, keywords, current, line).Step?
    ensures var s := ScanToken(src, keywords, current, line);
            var rest := ScanFrom(src, keywords, s.current, s.line);
            !rest.Scanned? ==> ScanFrom(src, keywords, current, line) == rest
  {
  }

  /** `1 #` fails on the `#` although a number was already read. */
  lemma UnexpectedCharacterAbortsScan(keywords: map<string, TokenType>)
    ensures Scan("1 #", keywords) == LexError("unexpected token : #")
  {
    var src := "1 #";
    var error := LexError("unexpected token : #");
    HashFails(keywords);
    FailingStepAborts(src, keywords, 2, 1);
    assert ScanFrom(src, keywords, 2, 1) == error;
    Whitespace(src, keywords, 1, 1);
    LaterFailurePropagates(src, keywords, 1, 1);
    assert ScanFrom(src, keywords, 1, 1) == error;
    NumberBeforeSpace(keywords);
    LaterFailurePropagates(src, keywords, 0, 1);
    assert ScanFrom(src, keywords, 0, 1) == error;
  }

  lemma HashFails(keywords: map<string, TokenType>)
    ensures ScanToken("1 #", keywords, 2, 1) == Fail("unexpected token : #")
  {
    UnexpectedCharacter("1 #", keywords, 2, 1);
  }

  lemma NumberBeforeSpace(keywords: map<string, TokenType>)
    ensures ScanToken("1 #", keywords, 0, 1) == Step(Token(1, NumberLit, "1"), 1, 1)
  {
    var src := "1 #";
    DigitStartsNumber(src, keywords, 0, 1);
    assert RunEnd(src, 1, IsDigit) == 1;
    assert src[0..1] == "1";
  }

  /** `"ab` fails with the unterminated-string error on line 1. */
  lemma UnterminatedStringAbortsScan(keywords: map<string, TokenType>)
    ensures Scan("\"ab", keywords) == LexError(Error(1, UnterminatedString))
  {
    OpenStringFails(keywords);
    FailingStepAborts("\"ab", keywords, 0, 1);
  }

  lemma OpenStringFails(keywords: map<string, TokenType>)
    ensures ScanToken("\"ab", keywords, 0, 1) == Fail(Error(1, UnterminatedString))
  {
    var src := "\"ab";
    UnterminatedStringFails(src, keywords, 0, 1);
    assert src[1..] == "ab";
    NoBreaksInAb();
  }

  lemma NoBreaksInAb()
    ensures Newlines("ab") == 0
  {
    assert "ab"[1..] == "b" && "b"[1..] == "";
  }
}

=== FILE: statements.dfy ===
/** The statement tree of src/statement.rs and the function declarations the
    parser builds. */
module Statements {
  import opened Wrappers
  import opened Tokens
  import opened Expressions

  /** An identifier plus an expression (src/statement.rs:23-44). */
  datatype Assignment = Assignment(identifier: Token, expr: Expr)

  /** A typed declaration with an optional initialiser (src/statement.rs:48-63).
      No grammar rule builds one. */
  datatype Declaration = Declaration(valType: Token, identifier: Token, expr: Option<Expr>)

  /** A condition and the single statement it guards; there is no else branch
      (src/statement.rs:66-86). */
  datatype IfStatement = IfStatement(cond: Expr, body: Statement) {

    function Condition(): Expr {
      cond
    }

    function Statement(): Statement {
      body
    }
  }

  /** `Statement`, with the `BreakStatement` variant the parser builds. */
  datatype Statement =
    | ExprStmt(expr: Expr)
    | AssignStmt(assignment: Assignment)
    | DeclStmt(declaration: Declaration)
    | ScopeStmt(statements: seq<Statement>)
    | IfStmt(ifStatement: IfStatement)
    | BreakStmt

  /** A parsed function: its name, its parameter names and its body. */
  datatype FunctionDecl = FunctionDecl(name: string, params: seq<string>, body: Statement)

  /** True of a tree that nowhere holds a `Declaration`. */
  predicate NoDeclarations(s: Statement) {
    match s
    case DeclStmt(_) => false
    case ScopeStmt(ss) => forall i :: 0 <= i < |ss| ==> NoDeclarations(ss[i])
    case IfStmt(i) => NoDeclarations(i.body)
    case _ => true
  }

  /** `Assignment::new` followed by `identifier()` / `expr()` gives back exactly
      what was stored, and an assignment is rebuilt from its accessors. */
  lemma AssignmentAccessors(identifier: Token, expr: Expr, a: Assignment)
    ensures Assignment(identifier, expr).identifier == identifier
    ensures Assignment(identifier, expr).expr == expr
    ensures Assignment(a.identifier, a.expr) == a
  {
  }

  /** `Declaration::new` stores the type, the identifier and the optional
      initialiser unchanged; the initialiser may be absent. */
  lemma DeclarationFields(valType: Token, identifier: Token, expr: Option<Expr>)
    ensures Declaration(valType, identifier, expr).valType == valType
    ensures Declaration(valType, identifier, expr).identifier == identifier
    ensures Declaration(valType, identifier, expr).expr == expr
    ensures Declaration(valType, identifier, None).expr.None?
  {
  }

  /** `IfStatement::new` followed by `condition()` / `statement()` gives back the
      condition and the one owned body statement. */
  lemma IfStatementAccessors(cond: Expr, body: Statement)
    ensures IfStatement(cond, body).Condition() == cond
    ensures IfStatement(cond, body).Statement() == body
  {
  }
}

=== FILE: tokens.dfy ===
/** Tokens as built by the scanner (src/scanner.rs:194-196) and read by the parser.
    token.rs is not part of this model; the type set is reconstructed from its uses. */
module Tokens {

  /** Classification of a lexical unit. `OtherKeyword` stands for the reserved
      words of the keyword table that neither the scanner nor the parser names. */
  datatype TokenType =
    | LeftParen | RightParen | LeftBrace | RightBrace
    | Comma | Dot | Minus | Plus | Semicolon | Slash | Star
    | Bang | BangEqual | Equal | EqualEqual
    | Greater | GreaterEqual | Less | LessEqual
    | Ident | StringLit | NumberLit
    | Fun | If | Break | True | False | Nil
    | OtherKeyword(spelling: string)
    | Ignore | Eof

  /** A classified piece of source text and the line it ended on. */
  datatype Token = Token(line: nat, kind: TokenType, lexeme: string) {

    predicate IsType(t: TokenType) {
      kind == t
    }

    /** Whitespace, newlines and comments: the scanner drops these. */
    predicate IsIgnored() {
      kind == Ignore
    }
  }
}

=== FILE: wrappers.dfy ===
/** The optional-value datatype used where the source either yields a value or
    indexes past the end of a buffer. */
module Wrappers {

  datatype Option<+T> = None | Some(value: T)
}
